=== FILE: README.md ===
# adlogos front end: a Dafny model of its behavioural core

The site is a brochure front end. Most of it is markup, CMS fetches and routing. Five pieces have behaviour that can be stated exactly, and this project models each of them as pure Dafny functions over immutable records:

- **The cube background** (`Particle.tsx`), in `config.dfy`, `jsmath.dfy`, `particle.dfy` and `grid.dfy`. Each cube is a `Particle.Particle` record and `Particle.Update` is one animation frame. The model covers:
  - stamina that drains under the pointer and recovers away from it;
  - the cubic pointer falloff;
  - the periodic diagonal light wave, computed with JavaScript's `((n % m) + m) % m`;
  - exponential easing of depth, size and spin;
  - the perspective projection;
  - the intensity arithmetic used when drawing.

  `Grid.CreateParticles` builds the rotated lattice of cubes. Numbers are exact reals, and JavaScript's truncating `%` is written out in `JsMath.JsRem`.
- **Excerpts** (`stripHtml` in `app/blog/page.tsx` and `components/HomeContent.tsx`), in `excerpt.dfy`. `Excerpt.StripTags` is the regex tag removal `<[^>]*>?`. A `<` swallows everything up to and including the next `>`, or to the end of the text. The truncation rules are modelled too:
  - the blog page and the browser branch append `"..."` only to text longer than the limit;
  - the server branch always appends it.

  The category fallback to `"Tech"` is also here.
- **The navigation bar** (`Navbar.tsx`), in `navbar.dfy`: the active-link prefix rule, the scrolled threshold, and the open/closed state of the mobile drawer.
- **The contact form** (`ContactContent.tsx`), in `contact.dfy`. The state is five fields plus the `isSubmitting` and `isSubmitted` flags. The form's transitions are field edits, the two halves of the asynchronous submit handler, and "send another". The outcome of the network request is an input.

Several things the code reads from the host become parameters of the model, listed here and under "Left out":
- the pointer distance (a square root);
- the cosine and sine of the wave and slant angles;
- the canvas diagonal;
- the random draws of the cube constructor;
- the scroll offset, the pathname and `isMobile`;
- the result of `fetch`.

Two facts the model relies on:
- **The wave ignores the pointer.** `update` never moves a cube's x/y away from its base position: the pointer branch only changes z, and the other branch eases x/y back to base. So the wave intensity depends only on the home position, the phase and the wave axis (`Particle.WaveIgnoresPointer`).
- **The server branch of the home page's `stripHtml` never runs.** That component loads its posts in an effect, so the branch cannot run during server rendering. It is still modelled because the function contains it.

## Model

| member | source | states |
|---|---|---|
| JsMath.Ease | frontend/components/Particle.tsx:159-166 | one easing step multiplies the gap to the target by (1 - k); for k in [0,1] the value stays between start and target (no overshoot) |
| JsMath.Ceil | frontend/components/Particle.tsx:276-277 | `Math.ceil`: the least integer not below x |
| JsMath.JsRem | frontend/components/Particle.tsx:48 | JavaScript `n % m` for m > 0: carries the sign of n, magnitude below m, and n minus it is the truncated quotient times m |
| JsMath.JsMod | frontend/components/Particle.tsx:48 | `mod(n, m)` lies in [0, m) |
| JsMath.FloorMod | frontend/components/Particle.tsx:48 | the floored-modulo reference definition lies in [0, m) |
| JsMath.JsModIsFloorMod | frontend/components/Particle.tsx:48 | `mod(n, m)` equals floored modulo for every real n, and differs from n by an integer multiple of m |
| JsMath.JsModPeriodic | frontend/components/Particle.tsx:48 | `mod(n + m, m) == mod(n, m)` |
| Particle.Project | frontend/components/Particle.tsx:79-86 | the depth scale is positive, at most 1 for z >= 0, and at least 2000/2200 for z <= 200 |
| Particle.ProjectRoundTrip | frontend/components/Particle.tsx:79-86 | unprojecting a projected point at its own depth gives the point back |
| Particle.ValidProjectionScale | frontend/components/Particle.tsx:80 | every cube satisfying the frame invariant projects with scale in [2000/2200, 1] |
| Particle.Falloff | frontend/components/Particle.tsx:141-142 | the cubic falloff is in [0,1], 1 on the pointer and 0 at the interaction radius |
| Particle.FalloffDecreasing | frontend/components/Particle.tsx:141-142 | the pull weakens strictly with distance: a cube farther from the pointer always gets a smaller falloff, all the way out to the radius |
| JsMath.CubeIncreasing | frontend/components/Particle.tsx:142 | cubing, the power in the falloff, is strictly increasing on non-negative reals |
| Particle.DistFromWave | frontend/components/Particle.tsx:172-177 | the folded distance lies in [0, 1250] and is the distance to the nearest band centre, min(r, 2500 - r) for the floored residue r |
| Particle.BandIntensity | frontend/components/Particle.tsx:179-184 | the wave intensity is in [0,1], 0 at or beyond half the wave width, 1 on the band centre |
| Particle.WaveIntensity | frontend/components/Particle.tsx:172-184 | the wave intensity at any position and phase lies in [0,1] |
| Particle.WaveBandPeriodic | frontend/components/Particle.tsx:172-177 | the band distance is unchanged by shifting the axis position or the phase by one wave interval |
| Particle.WaveReturns | frontend/components/Particle.tsx:35-38 | with the phase advancing by `waveSpeed` = 4 per frame (line 320), the band distance repeats after 625 frames, one wave interval |
| Particle.FrameHeight | frontend/components/Particle.tsx:114 | the `canvas.height \|\| window.innerHeight` fallback yields a positive height whenever either height is positive, which is what the gradient's division needs |
| Particle.GradientHue | frontend/components/Particle.tsx:114-116 | the gradient hue lies in [40, 260], is 260 above the frame and 40 below it |
| Particle.GradientDescends | frontend/components/Particle.tsx:115-116 | a lower cube never gets a higher gradient hue |
| Particle.SizeMultiplier | frontend/components/Particle.tsx:109 | the size multiplier is always one of the pattern's entries (the index is in range) |
| Particle.NewParticle | frontend/components/Particle.tsx:106-129 | given a usable canvas or window height, a new cube satisfies the frame invariant, rests at its base position with base size, full stamina and zero intensities; for draws in [0,1) its hue is within 40 of the gradient and its spin speeds within 0.01 of 0 |
| Particle.Update | frontend/components/Particle.tsx:131-185 | a frame never changes the base fields and preserves the invariant: stamina and intensities in [0,1], x/y at base, z in [0,200], sizes in [base, 3 x base], x/y spin within the 0.25 boost of base, z spin at base |
| Particle.PhaseValid | frontend/components/Particle.tsx:140-165 | whichever branch runs, the invariant holds after it |
| Particle.PointerPhaseValid | frontend/components/Particle.tsx:140-153 | the pointer branch keeps stamina, intensity, depth, target size and spin within their bounds |
| Particle.PointerSize | frontend/components/Particle.tsx:141-148 | in the pointer branch the size target stays in [base, 3 x base] |
| Particle.PointerDepth | frontend/components/Particle.tsx:141-149 | in the pointer branch the depth stays in [0, 200] |
| Particle.PointerSpin | frontend/components/Particle.tsx:147-153 | in the pointer branch the x and y spin exceed their base drift by at most 0.25 |
| Particle.RelaxPhaseValid | frontend/components/Particle.tsx:154-165 | the no-pointer branch keeps the invariant |
| Particle.AdvanceValid | frontend/components/Particle.tsx:166-184 | size easing, spin and the wave update keep the invariant |
| Particle.InteractionStep | frontend/components/Particle.tsx:140-148 | inside the radius the pointer intensity is falloff times stamina, stamina drops by 0.015 floored at 0, and the size target lies in [base, 3 x base] |
| Particle.NoInteractionStep | frontend/components/Particle.tsx:154-158 | on mobile, with interaction disabled, or at distance >= 300, the pointer intensity is 0, the target is the base size and stamina rises by 0.03 capped at 1 |
| Particle.SizeEasesTowardTarget | frontend/components/Particle.tsx:166 | the size gap to the target shrinks by 0.9 and keeps its sign |
| Particle.WaveIgnoresPointer | frontend/components/Particle.tsx:140-184 | the wave intensity after a frame depends only on the base position, the phase and the axis, not on the pointer |
| Particle.SpinZIgnoresPointer | frontend/components/Particle.tsx:170 | the z rotation advances the same way whatever the pointer does |
| Particle.StaminaDrains | frontend/components/Particle.tsx:145 | after n frames of hover stamina is max(0, s - 0.015 n) |
| Particle.StaminaExhausted | frontend/components/Particle.tsx:145 | 67 = ceil(1/0.015) frames of hover exhaust any stamina in [0,1] |
| Particle.StaminaRecovers | frontend/components/Particle.tsx:156 | after n frames away from the pointer stamina is min(1, s + 0.03 n) |
| Particle.StaminaRestored | frontend/components/Particle.tsx:155-156 | 34 frames away from the pointer restore full stamina with zero pointer intensity |
| Particle.NoPointerEffect | frontend/components/Particle.tsx:154-158 | after any non-empty run of frames away from the pointer, the pointer intensity is 0 and the target is the base size |
| Particle.RelaxStep | frontend/components/Particle.tsx:159-166 | one frame away from the pointer multiplies the depth and size gaps by 0.9 and the x and y spin gaps by 0.95 |
| Particle.DepthSettles | frontend/components/Particle.tsx:161 | after n frames away from the pointer the depth gap is the starting one shrunk n times by 0.9, that is 0.9^n times it (`Particle.DecayIsPow`) |
| Particle.SizeSettles | frontend/components/Particle.tsx:158-166 | after n frames away from the pointer the size gap to base is the starting one shrunk n times by 0.9 (0.9^n times it) |
| Particle.SpinSettles | frontend/components/Particle.tsx:163 | after n frames away from the pointer the x spin gap to base is the starting one shrunk n times by 0.95 (0.95^n times it) |
| Particle.SpinYSettles | frontend/components/Particle.tsx:164 | after n frames away from the pointer the y spin gap to base is the starting one shrunk n times by 0.95 |
| Particle.RunKeepsValid | frontend/components/Particle.tsx:131-185 | the invariant holds after any sequence of frames |
| Particle.FinalIntensity | frontend/components/Particle.tsx:200 | the final intensity is in [0,1] and is the larger of the wave and pointer intensities |
| Particle.FillOpacity | frontend/components/Particle.tsx:226 | the fill opacity lies in [0, 0.42] and is positive exactly when the intensity exceeds 0.3 |
| Particle.StrokeFor | frontend/components/Particle.tsx:195-207 | saturation, lightness and line width stay in their ranges; intensity 0 gives the resting stroke, intensity 1 the full sparkle |
| Particle.ShadowBlur | frontend/components/Particle.tsx:215-220 | the glow lies in [0, 50] and is on exactly when the intensity exceeds 0.1 |
| Grid.Cols | frontend/components/Particle.tsx:276 | at least 4 columns; the columns beyond the spare four span the diagonal, and one column fewer would not (so exactly ceil(d/80) + 4) |
| Grid.Rows | frontend/components/Particle.tsx:277 | at least 4 rows; the rows beyond the spare four span the diagonal, and one row fewer would not (so exactly ceil(d/80) + 4) |
| Grid.EmptyCanvasGrid | frontend/components/Particle.tsx:275-277 | a 0x0 canvas still gets 16 cubes |
| Grid.CellAt | frontend/components/Particle.tsx:286-292 | cell (i, j) has a pattern index between i and i + rows - 1, so at most cols + rows - 2 on the lattice |
| Grid.LatticeCentred | frontend/components/Particle.tsx:283-291 | the lattice is point-symmetric about the canvas centre |
| Grid.PatternStripes | frontend/components/Particle.tsx:292 | the size pattern runs in diagonal stripes: index constant along (+1,+1), up by one along +i |
| Grid.ParticleAt | frontend/components/Particle.tsx:288-293 | every lattice cube satisfies the frame invariant |
| Grid.LatticeIndex | frontend/components/Particle.tsx:286-295 | the first n columns hold n x rows cubes, the k-th being the one of cell (k / rows, k mod rows) |
| Grid.CreateParticles | frontend/components/Particle.tsx:271-296 | produces cols x rows cubes in column-major order, each the cube of its cell, all satisfying the invariant |
| Grid.BuildLattice | frontend/components/Particle.tsx:286-295 | the nested loops push exactly the lattice's columns, left to right, each column top to bottom |
| Excerpt.AfterTag | frontend/app/blog/page.tsx:26 | a tag ends after the first `>`: what remains is exactly the text after the first `>`, or nothing when no `>` follows |
| Excerpt.AfterTagSkips | frontend/app/blog/page.tsx:26 | a `>`-free tag body followed by `>` is skipped up to and including that `>` |
| Excerpt.StripTags | frontend/app/blog/page.tsx:26 | the regex replace never lengthens the text and leaves no `<` in it |
| Excerpt.PlainPrefixKept | frontend/app/blog/page.tsx:26 | tag-free text is kept verbatim in front of whatever follows |
| Excerpt.PlainTextUnchanged | frontend/app/blog/page.tsx:26 | text without `<` is unchanged |
| Excerpt.StripIdempotent | frontend/app/blog/page.tsx:26 | tag removal is idempotent |
| Excerpt.UnclosedTagDropsRest | frontend/app/blog/page.tsx:26 | an unclosed `<` removes everything from it to the end |
| Excerpt.BareCloserKept | frontend/app/blog/page.tsx:26 | a `>` with no `<` before it is kept |
| Excerpt.ClosedTagDropped | frontend/app/blog/page.tsx:26 | a closed tag is removed with both brackets |
| Excerpt.StripIsSubsequence | frontend/app/blog/page.tsx:26 | the stripped text is a subsequence of the input, in order |
| Excerpt.StripTagsScan | frontend/app/blog/page.tsx:26 | a left-to-right scan with an in-tag flag computes exactly the regex tag removal |
| Excerpt.Head | frontend/app/blog/page.tsx:27 | `substring(0, limit)` is a prefix of length min(length, limit) |
| Excerpt.Truncate | frontend/app/blog/page.tsx:27 | text within the limit is returned as is; longer text becomes its first `limit` characters plus `"..."`, length limit + 3 |
| Excerpt.BlogExcerpt | frontend/app/blog/page.tsx:24-28 | the blog excerpt is at most limit + 3 long; it is the stripped text when that fits, else its first `limit` characters plus `"..."` |
| Excerpt.ServerExcerpt | frontend/components/HomeContent.tsx:47-49 | the server excerpt always ends in `"..."`, has length min(stripped, limit) + 3, and its body is a prefix of the stripped text |
| Excerpt.BrowserExcerpt | frontend/components/HomeContent.tsx:52-53 | given the DOM's text, `"..."` is appended only when the text exceeds the limit |
| Excerpt.ExcerptsTagFree | frontend/components/HomeContent.tsx:48 | neither regex-based excerpt contains `<` |
| Excerpt.ServerVersusBlog | frontend/components/HomeContent.tsx:46-53 | on long text the server and blog excerpts agree; on short text the server one is the blog one plus `"..."` |
| Excerpt.BlogIsBrowserRuleOnStripped | frontend/app/blog/page.tsx:26-27 | the blog excerpt is the browser truncation rule applied to the regex-stripped text |
| Excerpt.CardExcerptLength | frontend/app/blog/page.tsx:99 | with the card limit of 100 an excerpt is at most 103 characters on the blog page and on the home page, whichever branch (server regex or browser DOM text) runs; the server one has at least the three dots |
| Excerpt.ShortPlainExcerpt | frontend/components/HomeContent.tsx:48 | a short tag-free excerpt is shown unchanged on the blog page but with `"..."` by the server branch |
| Excerpt.FirstTermName | frontend/app/blog/page.tsx:91 | the optional chain yields a name exactly when `_embedded`, `wp:term`, its first group and that group's first term all exist, and that name is the first term's of the first group |
| Excerpt.Category | frontend/app/blog/page.tsx:91 | the category is never empty: it is "Tech" or the first term name |
| Excerpt.CategoryFallback | frontend/app/blog/page.tsx:91 | "Tech" exactly when the first term name is missing or empty, otherwise that name |
| Navbar.IsActive | frontend/components/Navbar.tsx:28-31 | the root link is active iff the path is exactly `/`; any other link iff the path starts with its path |
| Navbar.ActiveOnOwnPath | frontend/components/Navbar.tsx:29-30 | every link is active on its own path |
| Navbar.ActiveOnExtensions | frontend/components/Navbar.tsx:30 | a non-root link stays active on every extension of its path |
| Navbar.BlogActiveOnBlogroll | frontend/components/Navbar.tsx:30 | `/blog` is active on `/blog/42` and on `/blogroll`; the root link is not active on `/blog` |
| Navbar.ActiveCount | frontend/components/Navbar.tsx:54-66 | the active count is 0 exactly when no link is active |
| Navbar.AtMostOneActive | frontend/components/Navbar.tsx:21-31 | at most one of the three configured links is active on any pathname |
| Navbar.ScrolledMonotone | frontend/components/Navbar.tsx:15 | scrolling further down never drops the scrolled style, and an offset at or below 20 never has it |
| Navbar.Step | frontend/components/Navbar.tsx:44-120 | the menu button flips the drawer; logo, overlay and drawer links close it; scrolling only sets the scrolled flag |
| Navbar.ToggleTwice | frontend/components/Navbar.tsx:81 | pressing the menu button twice restores the drawer state |
| Navbar.OpenIffOddPresses | frontend/components/Navbar.tsx:79-85 | over button presses and scrolls, the drawer ends up flipped iff the button was pressed an odd number of times |
| Navbar.ClosedAfterClosingEvent | frontend/components/Navbar.tsx:44-120 | after a closing click followed only by scrolling, the drawer is closed |
| Navbar.ScrollKeepsDrawer | frontend/components/Navbar.tsx:14-18 | scrolling never opens or closes the drawer |
| Contact.Set | frontend/components/ContactContent.tsx:37 | the spread update sets the named field and keeps the other four |
| Contact.Change | frontend/components/ContactContent.tsx:35-38 | an edit changes only the named field and neither flag |
| Contact.ChangeToSameValue | frontend/components/ContactContent.tsx:37 | writing back a field's own value changes nothing |
| Contact.ChangesCommute | frontend/components/ContactContent.tsx:35-38 | edits of different fields commute |
| Contact.IncludesIff | frontend/components/ContactContent.tsx:45 | `includes` holds exactly when the substring occurs at some position |
| Contact.ConfiguredEndpointIsLive | frontend/components/ContactContent.tsx:13-45 | the configured endpoint does not contain `YOUR_FORM_ID`, so the demo path is never taken |
| Contact.BeginSubmit | frontend/components/ContactContent.tsx:42 | submitting sets the in-flight flag before any outcome, with the form and sent flag unchanged |
| Contact.FinishSubmit | frontend/components/ContactContent.tsx:45-88 | every ending clears the in-flight flag; the demo path marks sent and keeps the form; success marks sent and blanks all five fields; failure keeps both the form and the sent flag |
| Contact.SendAnother | frontend/components/ContactContent.tsx:129 | "send another" clears the sent flag and keeps the form and in-flight flag |
| Contact.ButtonDisabledWhileInFlight | frontend/components/ContactContent.tsx:178 | the submit button is disabled once submitting starts and enabled again after any outcome |
| Contact.LiveSubmission | frontend/components/ContactContent.tsx:56-88 | with the configured endpoint, success gives a blank sent form, and failure gives the same form, no longer in flight |
| Contact.Step | frontend/components/ContactContent.tsx:117-178 | only "send another" leaves the thank-you panel; a disabled button ignores a submit; the typed text changes only by an edit on the visible form or by a successful send that blanks it; a request starts only from a submit of the visible form |
| Contact.StepKeepsConsistent | frontend/components/ContactContent.tsx:117-178 | no user event leads to a state that is both in flight and sent |
| Contact.RunKeepsConsistent | frontend/components/ContactContent.tsx:117-178 | no sequence of user events leads to a state that is both in flight and sent |
| Contact.ReachableStatesConsistent | frontend/components/ContactContent.tsx:24-33 | every state reachable from the page's initial state is consistent |
| Contact.EditsInFlightLostOnSuccess | frontend/components/ContactContent.tsx:66-76 | an edit made while a request is in flight is wiped by a successful response |

Constants are in `Config` for the `CONFIG` object at Particle.tsx:5-43 and the focal length at line 77. The literal factors 0.1, 0.05, 0.25 and 200 in `update` are named `ZPull`, `SpinEase`, `SpinBoost` and `MaxPull`. The card excerpt limit is `Excerpt.CardLimit` (100, passed at page.tsx:99 and HomeContent.tsx:264); the helpers' default of 80 (page.tsx:24, HomeContent.tsx:46) is never used by a card. The phase step `waveSpeed` is `Config.WaveSpeed`, used by `Particle.WaveReturns`.

## Left out

- Canvas drawing: `drawCube`, the `hsla` strings, the hue shift from `sin(colorTimer)` and the scroll offset, and compositing. These are side effects with no state. Only the intensity, fill, stroke and glow arithmetic of `draw` is modelled.
- Trigonometry, square roots and randomness. The pointer distance, the cos/sin of the wave and slant angles, the canvas diagonal and the constructor's `Math.random()` draws are inputs, and so are the initial colour phase and cube angles. IEEE rounding, NaN and the infinities are not modelled: numbers are exact reals.
- The animation loop, resize observer, mouse listeners and teardown (Particle.tsx:298-355). `update` is applied per frame by `Particle.Run`, and the phase advance `wavePhase += 4` is left to the caller. `isMobile`, the scroll offset and the pathname are inputs.
- Particle.Project: requires z > -2000, points in front of the camera; the source divides by zero at z = -2000 and gives a negative scale behind the camera. Every modelled cube has z in [0, 200].
- Particle.GradientHue and Particle.NewParticle: require a positive frame height, respectively a positive canvas or window height (`Particle.HasHeight`); when both heights are 0 the source divides by 0: the clamp absorbs the resulting ±Infinity, so cubes below the centre get the end hue 40 and cubes above it 260, while a cube at y = 0 computes 0/0 and gets NaN.
- JsMath.JsRem: requires a positive modulus; the source only uses `mod` with the wave interval 2500.
- Particle.BandIntensity: does not state that the intensity is positive strictly inside the band.
- Particle.NewParticle: the hue and spin bounds hold for random draws in [0, 1), as `Math.random()` guarantees; other draws are accepted and the bounds are conditional.
- Excerpt.Head: the limit is a natural number; JavaScript's `substring` also accepts negative or fractional limits, which no caller passes.
- Strings are sequences of characters; JavaScript counts UTF-16 code units, so lengths differ for characters outside the Basic Multilingual Plane.
- The DOM-based tag removal (`innerHTML`/`textContent`) depends on a browser HTML parser. Its extracted text is an input to `Excerpt.BrowserExcerpt`.
- `formatDate` depends on `Date` parsing and the local time zone.
- All `fetch` calls, page loading and error flags, `alert`, `scrollTo`, `console`, and the demo delay. The request outcome is the `Contact.Outcome` input.
- The browser's `required` field validation, which can block a submit before `handleSubmit` runs. Edits are modelled only for the five field names the form renders.
- Static markup: the privacy, terms and services pages, Footer, BlogCard, metadata and routing.

=== FILE: config.dfy ===
/** The design constants of the animated cube background (the `CONFIG`
    object of frontend/components/Particle.tsx and the fixed focal length).
    They are loaded once and never change. The slant angle (-30 degrees)
    and wave angle (-45 degrees) are only ever used through their cosine
    and sine, which the model takes as inputs. */
module Config {
  // Layout and size
  const SpacingX: real := 80.0
  const SpacingY: real := 80.0
  const SizePattern: seq<real> := [2.5, 1.5, 0.8]

  // Pointer interaction
  const MouseInteractionRadius: real := 300.0
  const InteractionStrength: real := 3.0
  const EaseFactor: real := 0.1
  const InteractionDecay: real := 0.015
  const InteractionRecovery: real := 0.03
  /** Literal easing factor of the z pull inside the interaction branch. */
  const ZPull: real := 0.1
  /** Literal easing factor of the rotation speed outside the interaction branch. */
  const SpinEase: real := 0.05
  /** Literal rotation-speed boost per unit of pointer intensity. */
  const SpinBoost: real := 0.25
  /** Literal depth (in model units) a fully excited cube is pulled to. */
  const MaxPull: real := 200.0

  // Colour
  const HueTop: real := 260.0
  const HueBottom: real := 40.0
  const HueRandomness: real := 40.0
  const ColorAnimationSpeed: real := 0.02
  const BaseLightness: real := 60.0
  const SparkleLightness: real := 100.0
  const BaseSaturation: real := 80.0
  const BaseAlpha: real := 0.7

  // Cube
  const BaseCubeSize: real := 12.0
  const WireframeWidth: real := 1.5

  // Wave
  const WaveSpeed: real := 4.0
  const WaveWidth: real := 600.0
  const WaveInterval: real := 2500.0

  // Glow
  const ShadowBlurStrength: real := 50.0
  const GlowThreshold: real := 0.1
  const FillThreshold: real := 0.3
  const FillGain: real := 0.6

  // Projection
  const Fov: real := 2000.0
}

=== FILE: contact.dfy ===
/** The contact form (frontend/components/ContactContent.tsx): five text
    fields, an "in flight" flag and a "sent" flag, driven by field edits, the
    asynchronous submit handler and the "send another" button. The network
    round trip to the form service is an input: the model receives its
    outcome instead of performing it. */
module Contact {

  datatype Field = Name | Company | Email | Subject | Message

  datatype FormData = FormData(name: string, company: string, email: string, subject: string, message: string)

  /** Every field blank: the initial form and the form after a successful send. */
  const EmptyForm: FormData := FormData("", "", "", "", "")

  datatype State = State(form: FormData, isSubmitting: bool, isSubmitted: bool)

  const Initial: State := State(EmptyForm, false, false)

  /** `FORM_ENDPOINT` */
  const FormEndpoint: string := "https://formspree.io/f/xgvqkpwy"

  /** The placeholder whose presence in the endpoint selects the demo path. */
  const DemoMarker: string := "YOUR_FORM_ID"

  function Get(f: FormData, k: Field): string
  {
    match k
    case Name => f.name
    case Company => f.company
    case Email => f.email
    case Subject => f.subject
    case Message => f.message
  }

  /** `{ ...prev, [name]: value }` */
  function Set(f: FormData, k: Field, v: string): (r: FormData)
    ensures Get(r, k) == v
    ensures forall other: Field :: other != k ==> Get(r, other) == Get(f, other)
  {
    match k
    case Name => f.(name := v)
    case Company => f.(company := v)
    case Email => f.(email := v)
    case Subject => f.(subject := v)
    case Message => f.(message := v)
  }

  /** `handleChange`: only the edited field changes; the flags are untouched. */
  function Change(s: State, k: Field, v: string): (r: State)
    ensures Get(r.form, k) == v
    ensures forall other: Field :: other != k ==> Get(r.form, other) == Get(s.form, other)
    ensures r.isSubmitting == s.isSubmitting && r.isSubmitted == s.isSubmitted
  {
    s.(form := Set(s.form, k, v))
  }

  /** Two forms are equal when they agree on every field. */
  lemma FieldsDetermineForm(f: FormData, g: FormData)
    requires forall k: Field :: Get(f, k) == Get(g, k)
    ensures f == g
  {
    assert Get(f, Name) == Get(g, Name);
    assert Get(f, Company) == Get(g, Company);
    assert Get(f, Email) == Get(g, Email);
    assert Get(f, Subject) == Get(g, Subject);
    assert Get(f, Message) == Get(g, Message);
  }

  /** Writing back a field's own value changes nothing. */
  lemma ChangeToSameValue(s: State, k: Field)
    ensures Change(s, k, Get(s.form, k)) == s
  {
    FieldsDetermineForm(Change(s, k, Get(s.form, k)).form, s.form);
  }

  /** Edits of different fields commute. */
  lemma ChangesCommute(s: State, k1: Field, v1: string, k2: Field, v2: string)
    requires k1 != k2
    ensures Change(Change(s, k1, v1), k2, v2) == Change(Change(s, k2, v2), k1, v1)
  {
    FieldsDetermineForm(Change(Change(s, k1, v1), k2, v2).form, Change(Change(s, k2, v2), k1, v1).form);
  }

  /** `text.includes(sub)`, scanning start positions left to right. */
  function Includes(text: string, sub: string): (b: bool)
    decreases |text|
  {
    if |text| < |sub| then false
    else text[..|sub|] == sub || Includes(text[1..], sub)
  }

  /** `sub` occurs in `text` starting at position `i`. */
  predicate OccursAt(text: string, sub: string, i: int)
  {
    0 <= i && i + |sub| <= |text| && text[i..i + |sub|] == sub
  }

  /** `Includes` holds exactly when `sub` occurs at some position of `text`. */
  lemma {:induction false} IncludesIff(text: string, sub: string)
    ensures Includes(text, sub) <==> exists i :: OccursAt(text, sub, i)
    decreases |text|
  {
    if |text| >= |sub| {
      if text[..|sub|] == sub {
        assert OccursAt(text, sub, 0);
      } else {
        assert |text| > 0;
        IncludesIff(text[1..], sub);
        if Includes(text[1..], sub) {
          var i :| OccursAt(text[1..], sub, i);
          assert text[1..][i..i + |sub|] == text[i + 1..i + 1 + |sub|];
          assert OccursAt(text, sub, i + 1);
        }
        if exists i :: OccursAt(text, sub, i) {
          var i :| OccursAt(text, sub, i);
          assert i != 0;
          assert text[1..][i - 1..i - 1 + |sub|] == text[i..i + |sub|];
          assert OccursAt(text[1..], sub, i - 1);
        }
      }
    }
  }

  /** A text lacking the first character of `sub` does not include it. */
  lemma {:induction false} MissingFirstChar(text: string, sub: string)
    requires |sub| > 0 && sub[0] !in text
    ensures !Includes(text, sub)
    decreases |text|
  {
    if |text| >= |sub| {
      assert text[..|sub|][0] == text[0];
      MissingFirstChar(text[1..], sub);
    }
  }

  /** The configured endpoint has no upper-case `Y`, so it never selects the
      demo path: every submission goes to the network. */
  lemma ConfiguredEndpointIsLive()
    ensures !Includes(FormEndpoint, DemoMarker)
  {
    assert DemoMarker[0] == 'Y';
    MissingFirstChar(FormEndpoint, DemoMarker);
  }

  /** The outcome of the network round trip. */
  datatype Outcome =
    | Accepted   // `response.ok`
    | Rejected   // a non-ok response: the handler throws
    | Failed     // `fetch` (or reading the error body) threw

  /** The synchronous start of `handleSubmit`: `setIsSubmitting(true)`. */
  function BeginSubmit(s: State): (r: State)
    ensures r.isSubmitting
    ensures r.form == s.form && r.isSubmitted == s.isSubmitted
  {
    s.(isSubmitting := true)
  }

  /** The end of `handleSubmit`, once the demo delay or the request settled. */
  function FinishSubmit(s: State, endpoint: string, outcome: Outcome): (r: State)
    ensures !r.isSubmitting
    ensures Includes(endpoint, DemoMarker) ==> r.isSubmitted && r.form == s.form
    ensures !Includes(endpoint, DemoMarker) && outcome.Accepted? ==> r.isSubmitted && r.form == EmptyForm
    ensures !Includes(endpoint, DemoMarker) && !outcome.Accepted? ==>
      r.isSubmitted == s.isSubmitted && r.form == s.form
  {
    if Includes(endpoint, DemoMarker) then
      s.(isSubmitting := false, isSubmitted := true)
    else
      match outcome
      case Accepted => State(EmptyForm, false, true)
      case Rejected => s.(isSubmitting := false)
      case Failed => s.(isSubmitting := false)
  }

  /** `<button onClick={() => setIsSubmitted(false)}>` on the thank-you panel. */
  function SendAnother(s: State): (r: State)
    ensures !r.isSubmitted
    ensures r.form == s.form && r.isSubmitting == s.isSubmitting
  {
    s.(isSubmitted := false)
  }

  /** `disabled={isSubmitting}` */
  function ButtonDisabled(s: State): (b: bool)
  {
    s.isSubmitting
  }

  /** The submit button is disabled for exactly as long as a request is in flight. */
  lemma ButtonDisabledWhileInFlight(s: State, outcome: Outcome)
    ensures ButtonDisabled(BeginSubmit(s))
    ensures !ButtonDisabled(FinishSubmit(BeginSubmit(s), FormEndpoint, outcome))
  {
  }

  /** With the configured endpoint, a failed send leaves the typed message in
      place for another try, and a successful one clears it. */
  lemma LiveSubmission(s: State, outcome: Outcome)
    ensures outcome.Accepted? ==> FinishSubmit(BeginSubmit(s), FormEndpoint, outcome) == State(EmptyForm, false, true)
    ensures !outcome.Accepted? ==> FinishSubmit(BeginSubmit(s), FormEndpoint, outcome) == s.(isSubmitting := false)
  {
    ConfiguredEndpointIsLive();
  }

  /** What the user can do. Events whose control is not on screen (the
      form and its fields are hidden once sent, the submit button is
      disabled while in flight, the thank-you button only exists once sent)
      leave the state unchanged. `Settle` is the pending request finishing. */
  datatype Event =
    | Edit(field: Field, value: string)
    | Submit
    | Settle(outcome: Outcome)
    | Another

  function Step(s: State, e: Event): (r: State)
    // only "send another" leaves the thank-you panel
    ensures s.isSubmitted && !e.Another? ==> r.isSubmitted
    // a disabled button ignores a second submit
    ensures e.Submit? && ButtonDisabled(s) ==> r == s
    // the typed text changes only by an edit on the visible form or a successful send
    ensures r.form != s.form ==>
      (e.Edit? && !s.isSubmitted) || (e.Settle? && s.isSubmitting && r.form == EmptyForm)
    // a request is in flight only after a submit of the visible form
    ensures r.isSubmitting && !s.isSubmitting ==> e.Submit? && !s.isSubmitted
  {
    match e
    case Edit(k, v) => if !s.isSubmitted then Change(s, k, v) else s
    case Submit => if !s.isSubmitted && !ButtonDisabled(s) then BeginSubmit(s) else s
    case Settle(o) => if s.isSubmitting then FinishSubmit(s, FormEndpoint, o) else s
    case Another => if s.isSubmitted then SendAnother(s) else s
  }

  /** The screen shows one of three things: the form, the form with a
      request in flight, or the thank-you panel, never in flight and sent at once. */
  predicate Consistent(s: State)
  {
    !(s.isSubmitting && s.isSubmitted)
  }

  lemma StepKeepsConsistent(s: State, e: Event)
    requires Consistent(s)
    ensures Consistent(Step(s, e))
  {
  }

  function Run(s: State, es: seq<Event>): (r: State)
    decreases |es|
  {
    if |es| == 0 then s else Run(Step(s, es[0]), es[1..])
  }

  /** Every state reachable from the initial one is consistent. */
  lemma {:induction false} RunKeepsConsistent(s: State, es: seq<Event>)
    requires Consistent(s)
    ensures Consistent(Run(s, es))
    decreases |es|
  {
    if |es| > 0 {
      StepKeepsConsistent(s, es[0]);
      RunKeepsConsistent(Step(s, es[0]), es[1..]);
    }
  }

  /** Every state reachable from the page's initial state is consistent. */
  lemma ReachableStatesConsistent(es: seq<Event>)
    ensures Consistent(Run(Initial, es))
  {
    RunKeepsConsistent(Initial, es);
  }

  /** Fields are not locked while a request is in flight, and a successful
      send then clears whatever was typed in the meantime. */
  lemma EditsInFlightLostOnSuccess(s: State, k: Field, v: string)
    requires s.isSubmitting
    ensures Run(s, [Edit(k, v), Settle(Accepted)]).form == EmptyForm
  {
    var es := [Edit(k, v), Settle(Accepted)];
    var s1 := Step(s, Edit(k, v));
    assert Run(s, es) == Run(s1, es[1..]);
    assert es[1..] == [Settle(Accepted)];
    assert Run(s1, [Settle(Accepted)]) == Step(s1, Settle(Accepted));
    ConfiguredEndpointIsLive();
  }
}

=== FILE: excerpt.dfy ===
/** Post excerpts (`stripHtml` in frontend/app/blog/page.tsx and the server
    branch of `stripHtml` in frontend/components/HomeContent.tsx) and the
    category fallback shown on every blog card.

    Tag removal is the global replace of the regular expression
    `<[^>]*>?` by the empty string: scanning left to right, every `<` starts
    a match that runs up to and including the next `>`, or to the end of the
    text when there is none; characters outside a match are kept. */
module Excerpt {

  datatype Option<T> = None | Some(value: T)

  const Ellipsis: string := "..."

  /** The `limit` both pages pass when rendering a card (the helpers'
      default of 80 is never used by a card). */
  const CardLimit: nat := 100

  // ---------------------------------------------------------------------
  // Tag removal
  // ---------------------------------------------------------------------

  /** Position i of `s` holds its first `>`. */
  predicate FirstClose(s: string, i: int) {
    0 <= i < |s| && s[i] == '>' && '>' !in s[..i]
  }

  /** What is left after a tag whose `<` has just been consumed: the text
      after the next `>`, or nothing when no `>` follows. */
  function AfterTag(s: string): (r: string)
    ensures |r| <= |s|
    ensures '>' in s ==> |r| < |s|
    ensures '>' !in s ==> r == []
    ensures forall i :: FirstClose(s, i) ==> r == s[i + 1..]
  {
    if |s| == 0 then []
    else if s[0] == '>' then s[1..]
    else FirstCloseInTail(s); AfterTag(s[1..])
  }

  /** Past a leading non-`>`, the first `>` of `s` is the first of its tail. */
  lemma FirstCloseInTail(s: string)
    requires |s| > 0 && s[0] != '>'
    ensures forall i :: FirstClose(s, i) ==> i >= 1 && FirstClose(s[1..], i - 1) && s[1..][i..] == s[i + 1..]
  {
    forall i | FirstClose(s, i)
      ensures i >= 1 && FirstClose(s[1..], i - 1) && s[1..][i..] == s[i + 1..]
    {
      assert s[1..][..i - 1] == s[1..i];
      assert s[..i] == [s[0]] + s[1..i];
    }
  }

  /** `html.replace(/<[^>]*>?/gm, '')` */
  function StripTags(s: string): (r: string)
    ensures |r| <= |s|
    ensures '<' !in r
    decreases |s|
  {
    if |s| == 0 then []
    else if s[0] == '<' then StripTags(AfterTag(s[1..]))
    else [s[0]] + StripTags(s[1..])
  }

  /** Tag-free text is kept verbatim, in front of whatever follows it. */
  lemma {:induction false} PlainPrefixKept(u: string, t: string)
    requires '<' !in u
    ensures StripTags(u + t) == u + StripTags(t)
  {
    if |u| > 0 {
      assert (u + t)[0] == u[0];
      assert (u + t)[1..] == u[1..] + t;
      PlainPrefixKept(u[1..], t);
      assert u == [u[0]] + u[1..];
    } else {
      assert u + t == t;
    }
  }

  /** Text without `<` is unchanged by tag removal. */
  lemma PlainTextUnchanged(s: string)
    requires '<' !in s
    ensures StripTags(s) == s
  {
    PlainPrefixKept(s, []);
    assert s + [] == s;
  }

  /** Removing tags twice removes nothing more. */
  lemma StripIdempotent(s: string)
    ensures StripTags(StripTags(s)) == StripTags(s)
  {
    PlainTextUnchanged(StripTags(s));
  }

  /** A `<` that is never closed removes everything from it to the end. */
  lemma UnclosedTagDropsRest(u: string, t: string)
    requires '<' !in u && '>' !in t
    ensures StripTags(u + ['<'] + t) == u
  {
    PlainPrefixKept(u, ['<'] + t);
    assert u + ['<'] + t == u + (['<'] + t);
    assert (['<'] + t)[1..] == t;
  }

  /** A `>` with no `<` before it is ordinary text. */
  lemma BareCloserKept(u: string, t: string)
    requires '<' !in u
    ensures StripTags(u + ['>'] + t) == u + ['>'] + StripTags(t)
  {
    PlainPrefixKept(u + ['>'], t);
  }

  /** A closed tag disappears together with both of its brackets. */
  lemma {:induction false} ClosedTagDropped(tag: string, t: string)
    requires '>' !in tag
    ensures StripTags(['<'] + tag + ['>'] + t) == StripTags(t)
  {
    var s := ['<'] + tag + ['>'] + t;
    assert s[1..] == tag + ['>'] + t;
    AfterTagSkips(tag, t);
  }

  lemma {:induction false} AfterTagSkips(tag: string, t: string)
    requires '>' !in tag
    ensures AfterTag(tag + ['>'] + t) == t
  {
    if |tag| > 0 {
      assert (tag + ['>'] + t)[1..] == tag[1..] + ['>'] + t;
      AfterTagSkips(tag[1..], t);
    } else {
      assert tag + ['>'] + t == ['>'] + t;
    }
  }

  /** `a` can be obtained from `b` by deleting characters. */
  predicate IsSubsequence(a: string, b: string)
    decreases |b|
  {
    if |a| == 0 then true
    else if |b| == 0 then false
    else (a[0] == b[0] && IsSubsequence(a[1..], b[1..])) || IsSubsequence(a, b[1..])
  }

  lemma {:induction false} SubsequenceOfSuffix(a: string, b: string, n: nat)
    requires n <= |b| && IsSubsequence(a, b[n..])
    ensures IsSubsequence(a, b)
    decreases n
  {
    if n > 0 {
      if |a| > 0 {
        assert b[n - 1..][1..] == b[n..];
      }
      SubsequenceOfSuffix(a, b, n - 1);
    }
  }

  lemma {:induction false} AfterTagIsSuffix(s: string)
    ensures exists n :: 0 <= n <= |s| && AfterTag(s) == s[n..]
  {
    if |s| == 0 {
      assert AfterTag(s) == s[0..];
    } else if s[0] == '>' {
      assert AfterTag(s) == s[1..];
    } else {
      AfterTagIsSuffix(s[1..]);
      var n :| 0 <= n <= |s[1..]| && AfterTag(s[1..]) == s[1..][n..];
      assert s[1..][n..] == s[n + 1..];
    }
  }

  /** The stripped text keeps the order of the characters it keeps. */
  lemma {:induction false} StripIsSubsequence(s: string)
    ensures IsSubsequence(StripTags(s), s)
    decreases |s|
  {
    if |s| > 0 {
      if s[0] == '<' {
        var rest := AfterTag(s[1..]);
        StripIsSubsequence(rest);
        AfterTagIsSuffix(s[1..]);
        var n :| 0 <= n <= |s[1..]| && rest == s[1..][n..];
        assert s[1..][n..] == s[n + 1..];
        SubsequenceOfSuffix(StripTags(s), s, n + 1);
      } else {
        StripIsSubsequence(s[1..]);
        var r := StripTags(s);
        assert r[0] == s[0] && r[1..] == StripTags(s[1..]);
      }
    }
  }

  /** What tag removal still produces from the unread text `s`, given
      whether the scan is inside a tag. */
  function Pending(inTag: bool, s: string): string
  {
    if inTag then StripTags(AfterTag(s)) else StripTags(s)
  }

  /** Reading character i of `s`, against the recursive definition. */
  lemma ScanStep(inTag: bool, s: string, i: nat)
    requires i < |s|
    ensures inTag && s[i] == '>' ==> Pending(true, s[i..]) == Pending(false, s[i + 1..])
    ensures inTag && s[i] != '>' ==> Pending(true, s[i..]) == Pending(true, s[i + 1..])
    ensures !inTag && s[i] == '<' ==> Pending(false, s[i..]) == Pending(true, s[i + 1..])
    ensures !inTag && s[i] != '<' ==> Pending(false, s[i..]) == [s[i]] + Pending(false, s[i + 1..])
  {
    assert s[i..][0] == s[i] && s[i..][1..] == s[i + 1..];
  }

  /** One scan step over the unread text `rest` keeps `out + Pending(...)`
      unchanged. */
  lemma ScanKeeps(out: string, inTag: bool, rest: string)
    requires |rest| > 0
    ensures out + Pending(inTag, rest) ==
      if inTag then out + Pending(rest[0] != '>', rest[1..])
      else if rest[0] == '<' then out + Pending(true, rest[1..])
      else (out + [rest[0]]) + Pending(false, rest[1..])
  {
    ScanStep(inTag, rest, 0);
    assert rest[0..] == rest;
    if !inTag && rest[0] != '<' {
      assert out + ([rest[0]] + Pending(false, rest[1..])) == (out + [rest[0]]) + Pending(false, rest[1..]);
    }
  }

  /** Tag removal as a left-to-right scan with an "inside a tag" flag. */
  method StripTagsScan(s: string) returns (out: string)
    ensures out == StripTags(s)
  {
    out := [];
    var inTag := false;
    var rest := s;
    while rest != []
      invariant out + Pending(inTag, rest) == StripTags(s)
      decreases |rest|
    {
      var c := rest[0];
      ScanKeeps(out, inTag, rest);
      if inTag {
        if c == '>' {
          inTag := false;
        }
      } else if c == '<' {
        inTag := true;
      } else {
        out := out + [c];
      }
      rest := rest[1..];
    }
    assert Pending(inTag, []) == [];
  }

  // ---------------------------------------------------------------------
  // Truncation
  // ---------------------------------------------------------------------

  /** `text.substring(0, limit)` for a non-negative whole `limit`. */
  function Head(text: string, limit: nat): (r: string)
    ensures |r| == if |text| <= limit then |text| else limit
    ensures r <= text
  {
    if |text| <= limit then text else text[..limit]
  }

  /** `text.length > limit ? text.substring(0, limit) + "..." : text`, the
      rule shared by the blog page and the browser branch of the home page. */
  function Truncate(text: string, limit: nat): (r: string)
    ensures |text| <= limit ==> r == text
    ensures |text| > limit ==> |r| == limit + 3 && r[..limit] <= text && r[limit..] == Ellipsis
  {
    if |text| > limit then Head(text, limit) + Ellipsis else text
  }

  /** Blog-page `stripHtml(html, limit)`. */
  function BlogExcerpt(html: string, limit: nat): (r: string)
    ensures |r| <= limit + 3
    ensures |StripTags(html)| <= limit ==> r == StripTags(html)
    ensures |StripTags(html)| > limit ==> r == StripTags(html)[..limit] + Ellipsis
  {
    Truncate(StripTags(html), limit)
  }

  /** Home-page `stripHtml` on the server (no `document`): tags removed,
      cut to `limit`, and `"..."` appended whatever the length. */
  function ServerExcerpt(html: string, limit: nat): (r: string)
    ensures |r| >= 3 && r[|r| - 3..] == Ellipsis
    ensures |r| == (if |StripTags(html)| <= limit then |StripTags(html)| else limit) + 3
    ensures r[..|r| - 3] <= StripTags(html)
  {
    Head(StripTags(html), limit) + Ellipsis
  }

  /** Home-page `stripHtml` in the browser, given the text content the DOM
      extracted from the markup. */
  function BrowserExcerpt(textContent: string, limit: nat): (r: string)
    ensures |textContent| <= limit ==> r == textContent
    ensures |textContent| > limit ==> r == textContent[..limit] + Ellipsis
  {
    Truncate(textContent, limit)
  }

  /** No `<` reaches a card through either regex-based excerpt. */
  lemma ExcerptsTagFree(html: string, limit: nat)
    ensures '<' !in BlogExcerpt(html, limit)
    ensures '<' !in ServerExcerpt(html, limit)
  {
    var t := StripTags(html);
    assert '<' !in Head(t, limit);
    assert '<' !in Ellipsis;
  }

  /** The two regex-based excerpts agree on long text; on short text the
      server variant is the blog one with a spurious `"..."`. */
  lemma ServerVersusBlog(html: string, limit: nat)
    ensures |StripTags(html)| > limit ==> ServerExcerpt(html, limit) == BlogExcerpt(html, limit)
    ensures |StripTags(html)| <= limit ==> ServerExcerpt(html, limit) == BlogExcerpt(html, limit) + Ellipsis
  {
  }

  /** The blog excerpt is the browser rule applied to the regex-stripped text. */
  lemma BlogIsBrowserRuleOnStripped(html: string, limit: nat)
    ensures BlogExcerpt(html, limit) == BrowserExcerpt(StripTags(html), limit)
  {
  }

  /** A card excerpt is at most 103 characters long on either page, whichever
      branch of the home page's helper runs; the server-rendered one always
      has at least the three dots. */
  lemma CardExcerptLength(html: string, textContent: string)
    ensures |BlogExcerpt(html, CardLimit)| <= 103
    ensures 3 <= |ServerExcerpt(html, CardLimit)| <= 103
    ensures |BrowserExcerpt(textContent, CardLimit)| <= 103
  {
  }

  /** A short plain-text excerpt is shown as is on the blog page but gains
      `"..."` on the server-rendered home page. */
  lemma ShortPlainExcerpt(html: string, limit: nat)
    requires '<' !in html && |html| <= limit
    ensures BlogExcerpt(html, limit) == html
    ensures ServerExcerpt(html, limit) == html + Ellipsis
  {
    PlainTextUnchanged(html);
  }

  // ---------------------------------------------------------------------
  // Category
  // ---------------------------------------------------------------------

  datatype Term = Term(name: string)

  /** `_embedded`, with its optional `wp:term` list of term groups. */
  datatype Embedded = Embedded(wpTerm: Option<seq<seq<Term>>>)

  datatype Post = Post(embedded: Option<Embedded>)

  /** `post._embedded?.['wp:term']?.[0]?.[0]?.name`: the name of the first
      term of the first group, when every step exists. */
  function FirstTermName(p: Post): (r: Option<string>)
    ensures r.Some? <==>
      p.embedded.Some? && p.embedded.value.wpTerm.Some?
      && |p.embedded.value.wpTerm.value| > 0 && |p.embedded.value.wpTerm.value[0]| > 0
    ensures r.Some? ==> r.value == p.embedded.value.wpTerm.value[0][0].name
  {
    match p.embedded
    case None => None
    case Some(e) =>
      match e.wpTerm
      case None => None
      case Some(groups) =>
        if |groups| == 0 || |groups[0]| == 0 then None else Some(groups[0][0].name)
  }

  /** `FirstTermName(p) || 'Tech'`: a missing or empty name falls back to "Tech". */
  function Category(p: Post): (r: string)
    ensures r != []
    ensures r == "Tech" || FirstTermName(p) == Some(r)
  {
    match FirstTermName(p)
    case Some(n) => if n != [] then n else "Tech"
    case None => "Tech"
  }

  /** The fallback is taken exactly when no non-empty first term name exists. */
  lemma CategoryFallback(p: Post)
    ensures (FirstTermName(p).None? || FirstTermName(p).value == []) ==> Category(p) == "Tech"
    ensures (FirstTermName(p).Some? && FirstTermName(p).value != []) ==> Category(p) == FirstTermName(p).value
  {
  }
}

=== FILE: grid.dfy ===
/** Grid generation (`createParticles` in frontend/components/Particle.tsx):
    a rectangular lattice large enough to cover the canvas diagonal plus two
    spare rows and columns on every side, centred on the canvas and rotated
    by the slant angle. The diagonal (a square root) and the cosine and sine
    of the slant angle are inputs. */
module Grid {
  import opened Config
  import opened JsMath
  import opened Particle

  /** (cos, sin) of the lattice slant angle. */
  datatype Rotation = Rotation(cos: real, sin: real)

  /** Where one lattice cell puts its particle and which size band it gets. */
  datatype Cell = Cell(x: real, y: real, patternIndex: nat)

  /** `Math.ceil(diagonal / spacingX) + 4` */
  function Cols(diagonal: real): (n: nat)
    requires diagonal >= 0.0
    ensures n >= 4
    ensures (n - 4) as real * SpacingX >= diagonal
    ensures n == 4 || ((n - 5) as real) * SpacingX < diagonal
  {
    var c := Ceil(diagonal / SpacingX);
    CeilCovers(diagonal, SpacingX, c);
    c + 4
  }

  /** `Math.ceil(diagonal / spacingY) + 4` */
  function Rows(diagonal: real): (n: nat)
    requires diagonal >= 0.0
    ensures n >= 4
    ensures (n - 4) as real * SpacingY >= diagonal
    ensures n == 4 || ((n - 5) as real) * SpacingY < diagonal
  {
    var c := Ceil(diagonal / SpacingY);
    CeilCovers(diagonal, SpacingY, c);
    c + 4
  }

  /** `c = ceil(d / sp)` spacings cover `d`, and one fewer does not. */
  lemma CeilCovers(d: real, sp: real, c: int)
    requires d >= 0.0 && sp > 0.0
    requires d / sp <= c as real < d / sp + 1.0
    ensures c >= 0
    ensures c as real * sp >= d
    ensures c == 0 || (c - 1) as real * sp < d
  {
    var q := d / sp;
    assert q * sp == d;
    DivMono(0.0, d, sp);
    MulLessEq(sp, q, c as real);
    if c > 0 {
      ScaledBelow((c - 1) as real, q, sp, d);
    }
  }

  lemma ScaledBelow(b: real, q: real, sp: real, d: real)
    requires sp > 0.0 && b < q && q * sp == d
    ensures b * sp < d
  {
    MulLess(sp, b, q);
  }

  /** A 0x0 canvas still gets a 4x4 lattice. */
  lemma EmptyCanvasGrid()
    ensures Cols(0.0) * Rows(0.0) == 16
  {
  }

  /** Cell (i, j) of a cols x rows lattice: spaced, centred on the origin,
      rotated, with `patternIndex = i + (rows - 1 - j)`. */
  function CellAt(i: nat, j: nat, cols: nat, rows: nat, rot: Rotation): (c: Cell)
    requires j < rows
    ensures i <= c.patternIndex < i + rows
    ensures i < cols ==> c.patternIndex <= cols + rows - 2
  {
    var x := (i as real) * SpacingX - ((cols - 1) as real) * SpacingX / 2.0;
    var y := (j as real) * SpacingY - ((rows - 1) as real) * SpacingY / 2.0;
    Cell(x * rot.cos - y * rot.sin, x * rot.sin + y * rot.cos, i + (rows - 1 - j))
  }

  /** The lattice is centred: opposite cells sit at opposite positions. */
  lemma LatticeCentred(i: nat, j: nat, cols: nat, rows: nat, rot: Rotation)
    requires i < cols && j < rows
    ensures CellAt(cols - 1 - i, rows - 1 - j, cols, rows, rot).x == -CellAt(i, j, cols, rows, rot).x
    ensures CellAt(cols - 1 - i, rows - 1 - j, cols, rows, rot).y == -CellAt(i, j, cols, rows, rot).y
  {
    var x := (i as real) * SpacingX - ((cols - 1) as real) * SpacingX / 2.0;
    var y := (j as real) * SpacingY - ((rows - 1) as real) * SpacingY / 2.0;
    var x' := ((cols - 1 - i) as real) * SpacingX - ((cols - 1) as real) * SpacingX / 2.0;
    var y' := ((rows - 1 - j) as real) * SpacingY - ((rows - 1) as real) * SpacingY / 2.0;
    assert x' == -x;
    assert y' == -y;
    assert x' * rot.cos - y' * rot.sin == -(x * rot.cos - y * rot.sin);
    assert x' * rot.sin + y' * rot.cos == -(x * rot.sin + y * rot.cos);
  }

  /** Size bands form diagonal stripes: a step of one column and one row
      keeps the pattern index; a step of one column alone advances it. */
  lemma PatternStripes(i: nat, j: nat, cols: nat, rows: nat, rot: Rotation)
    requires i + 1 < cols && j + 1 < rows
    ensures CellAt(i + 1, j + 1, cols, rows, rot).patternIndex == CellAt(i, j, cols, rows, rot).patternIndex
    ensures CellAt(i + 1, j, cols, rows, rot).patternIndex == CellAt(i, j, cols, rows, rot).patternIndex + 1
  {
  }

  /** The particle built for cell (i, j); its random draws are the `k`-th
      ones, k being its position in creation order. */
  function ParticleAt(i: nat, j: nat, cols: nat, rows: nat, rot: Rotation, v: Viewport,
                      draw: nat -> Seeds): (p: Particle)
    requires j < rows && HasHeight(v)
    ensures Valid(p)
  {
    var c := CellAt(i, j, cols, rows, rot);
    NewParticle(c.x, c.y, c.patternIndex, v, draw(CreationIndex(i, j, rows)))
  }

  /** Position of cell (i, j) in creation order, column by column. */
  function CreationIndex(i: nat, j: nat, rows: nat): nat {
    MulMono(0, i, rows);
    i * rows + j
  }

  lemma MulMono(a: int, b: int, n: nat)
    requires a <= b
    ensures a * n <= b * n
  {
  }

  /** Position i * n + j of a column-major layout lies in column i, row j. */
  lemma IndexSplit(i: nat, j: nat, n: nat)
    requires j < n
    ensures (i * n + j) / n == i && (i * n + j) % n == j
  {
    var k := i * n + j;
    var q := k / n;
    var r := k % n;
    assert k == q * n + r && 0 <= r < n;
    if q < i {
      MulMono(q + 1, i, n);
      assert false;
    } else if q > i {
      MulMono(i + 1, q, n);
      assert false;
    }
    assert q == i;
  }

  /** Column i of the lattice, top to bottom. */
  function Column(i: nat, cols: nat, rows: nat, rot: Rotation, v: Viewport, draw: nat -> Seeds): (c: seq<Particle>)
    requires HasHeight(v)
    ensures |c| == rows
  {
    seq(rows, j requires 0 <= j < rows => ParticleAt(i, j, cols, rows, rot, v, draw))
  }

  /** The cube at flat index k of a column-major lattice: cell
      (k / rows, k % rows). */
  function FlatParticle(k: nat, cols: nat, rows: nat, rot: Rotation, v: Viewport, draw: nat -> Seeds): Particle
    requires rows > 0 && HasHeight(v)
  {
    ParticleAt(k / rows, k % rows, cols, rows, rot, v, draw)
  }

  /** The first n columns, concatenated in creation order. */
  function Lattice(n: nat, cols: nat, rows: nat, rot: Rotation, v: Viewport, draw: nat -> Seeds): (ps: seq<Particle>)
    requires HasHeight(v)
  {
    if n == 0 then [] else Lattice(n - 1, cols, rows, rot, v, draw) + Column(n - 1, cols, rows, rot, v, draw)
  }

  /** The k-th particle of the first n columns is the one of cell
      (k / rows, k % rows): the grid is laid out column-major. */
  lemma {:induction false} LatticeIndex(n: nat, cols: nat, rows: nat, rot: Rotation, v: Viewport, draw: nat -> Seeds)
    requires HasHeight(v) && rows > 0
    ensures |Lattice(n, cols, rows, rot, v, draw)| == n * rows
    ensures forall k :: 0 <= k < n * rows ==>
      Lattice(n, cols, rows, rot, v, draw)[k] == FlatParticle(k, cols, rows, rot, v, draw)
  {
    if n > 0 {
      LatticeIndex(n - 1, cols, rows, rot, v, draw);
      var prev := Lattice(n - 1, cols, rows, rot, v, draw);
      var col := Column(n - 1, cols, rows, rot, v, draw);
      var start := (n - 1) * rows;
      NextColumnStart(n, rows);
      forall k | 0 <= k < n * rows
        ensures (prev + col)[k] == FlatParticle(k, cols, rows, rot, v, draw)
      {
        if k >= start {
          assert (prev + col)[k] == col[k - start];
          ColumnEntry(n - 1, k - start, cols, rows, rot, v, draw);
        } else {
          assert (prev + col)[k] == prev[k];
        }
      }
    }
  }

  lemma NextColumnStart(n: nat, rows: nat)
    requires n > 0
    ensures n * rows == (n - 1) * rows + rows
  {
  }

  /** Entry j of column i is the particle at flat index i * rows + j. */
  lemma ColumnEntry(i: nat, j: nat, cols: nat, rows: nat, rot: Rotation, v: Viewport, draw: nat -> Seeds)
    requires HasHeight(v) && j < rows
    ensures Column(i, cols, rows, rot, v, draw)[j] == FlatParticle(i * rows + j, cols, rows, rot, v, draw)
  {
    IndexSplit(i, j, rows);
  }

  /** `createParticles`: column by column, each column top to bottom. */
  method CreateParticles(diagonal: real, rot: Rotation, v: Viewport, draw: nat -> Seeds)
    returns (ps: seq<Particle>)
    requires diagonal >= 0.0 && HasHeight(v)
    ensures |ps| == Cols(diagonal) * Rows(diagonal)
    ensures forall k :: 0 <= k < |ps| ==>
      ps[k] == FlatParticle(k, Cols(diagonal), Rows(diagonal), rot, v, draw)
    ensures forall k :: 0 <= k < |ps| ==> Valid(ps[k])
  {
    var cols := Cols(diagonal);
    var rows := Rows(diagonal);
    ps := BuildLattice(cols, rows, rot, v, draw);
    LatticeIndex(cols, cols, rows, rot, v, draw);
  }

  /** The two nested loops of `createParticles` build the whole lattice. */
  method BuildLattice(cols: nat, rows: nat, rot: Rotation, v: Viewport, draw: nat -> Seeds)
    returns (ps: seq<Particle>)
    requires HasHeight(v)
    ensures ps == Lattice(cols, cols, rows, rot, v, draw)
  {
    ps := [];
    var i := 0;
    while i < cols
      invariant 0 <= i <= cols
      invariant ps == Lattice(i, cols, rows, rot, v, draw)
    {
      var col := Column(i, cols, rows, rot, v, draw);
      var j := 0;
      while j < rows
        invariant 0 <= j <= rows
        invariant ps == Lattice(i, cols, rows, rot, v, draw) + col[..j]
      {
        var p := ParticleAt(i, j, cols, rows, rot, v, draw);
        assert col[..j + 1] == col[..j] + [p];
        ps := ps + [p];
        j := j + 1;
      }
      assert col[..rows] == col;
      i := i + 1;
    }
  }
}

=== FILE: jsmath.dfy ===
/** Arithmetic helpers with JavaScript number semantics, over exact reals.
    IEEE rounding, NaN and the infinities are not modelled. */
module JsMath {

  function Min(a: real, b: real): (r: real)
    ensures r <= a && r <= b
    ensures r == a || r == b
  {
    if a <= b then a else b
  }

  function Max(a: real, b: real): (r: real)
    ensures a <= r && b <= r
    ensures r == a || r == b
  {
    if a >= b then a else b
  }

  /** `Math.pow(x, 2)` */
  function Square(x: real): real { x * x }

  /** `Math.pow(x, 3)` */
  function Cube(x: real): real { x * x * x }

  lemma SquareUnit(x: real)
    requires 0.0 <= x <= 1.0
    ensures 0.0 <= Square(x) <= 1.0
  {
    assert x * x <= x * 1.0;
  }

  lemma CubeUnit(x: real)
    requires 0.0 <= x <= 1.0
    ensures 0.0 <= Cube(x) <= 1.0
  {
    SquareUnit(x);
    assert x * x * x <= x * x * 1.0;
  }

  /** Cubing is strictly increasing on the non-negative reals. */
  lemma CubeIncreasing(x: real, y: real)
    requires 0.0 <= x < y
    ensures Cube(x) < Cube(y)
  {
    SquareIncreasing(x, y);
    var xx, yy := x * x, y * y;
    assert 0.0 <= xx by { MulLessEq(x, 0.0, x); }
    MulLessEq(xx, x, y);
    MulPos(yy - xx, y);
    assert (yy - xx) * y == yy * y - xx * y;
    assert xx * y == y * xx;
  }

  lemma SquareIncreasing(x: real, y: real)
    requires 0.0 <= x < y
    ensures x * x < y * y
  {
    MulPos(y - x, y + x);
    assert (y - x) * (y + x) == y * y - x * x;
  }

  lemma MulPos(a: real, b: real)
    requires a > 0.0 && b > 0.0
    ensures a * b > 0.0
  {
  }

  /** Product of two values in [0,1] stays in [0,1]. */
  lemma MulUnit(a: real, b: real)
    requires 0.0 <= a <= 1.0 && 0.0 <= b <= 1.0
    ensures 0.0 <= a * b <= 1.0
  {
    if b > 0.0 {
      MulLessEq(b, a, 1.0);
      assert b * a <= b;
    }
  }

  /** `d * k` for a factor k in [0,1] lies between 0 and d. */
  lemma ScaleUnit(d: real, k: real)
    requires d >= 0.0 && 0.0 <= k <= 1.0
    ensures 0.0 <= d * k <= d
  {
    if d > 0.0 {
      assert d * k <= d * 1.0;
    }
  }

  /** One easing step `c += (t - c) * k`: the remaining gap to the target
      is multiplied by (1 - k), so for k in [0,1] the value moves toward the
      target without passing it. */
  function Ease(c: real, t: real, k: real): (r: real)
    ensures t - r == (1.0 - k) * (t - c)
    ensures 0.0 <= k <= 1.0 && c <= t ==> c <= r <= t
    ensures 0.0 <= k <= 1.0 && t <= c ==> t <= r <= c
  {
    var r := c + (t - c) * k;
    EaseBetween(c, t, k, r);
    r
  }

  lemma EaseBetween(c: real, t: real, k: real, r: real)
    requires r == c + (t - c) * k
    ensures 0.0 <= k <= 1.0 && c <= t ==> c <= r <= t
    ensures 0.0 <= k <= 1.0 && t <= c ==> t <= r <= c
  {
    if 0.0 <= k <= 1.0 && c <= t {
      StepUp(c, t, k);
    }
    if 0.0 <= k <= 1.0 && t <= c {
      StepDown(c, t, k);
    }
  }

  /** Toward a higher target the step is between 0 and the gap. */
  lemma StepUp(c: real, t: real, k: real)
    requires 0.0 <= k <= 1.0 && c <= t
    ensures 0.0 <= (t - c) * k <= t - c
  {
    ScaleUnit(t - c, k);
  }

  /** Toward a lower target the step is between the (negative) gap and 0. */
  lemma StepDown(c: real, t: real, k: real)
    requires 0.0 <= k <= 1.0 && t <= c
    ensures t - c <= (t - c) * k <= 0.0
  {
    ScaleUnit(c - t, k);
    NegScale(c, t, k);
  }

  lemma NegScale(c: real, t: real, k: real)
    ensures (t - c) * k == -((c - t) * k)
  {
  }

  /** Round toward zero (the quotient JavaScript's `%` uses). */
  function Trunc(x: real): (r: int)
    ensures 0.0 <= x ==> 0 <= r && r as real <= x < r as real + 1.0
    ensures x <= 0.0 ==> r <= 0 && x <= r as real < x + 1.0
  {
    if x >= 0.0 then x.Floor else -((-x).Floor)
  }

  /** `Math.ceil(x)` */
  function Ceil(x: real): (r: int)
    ensures x <= r as real < x + 1.0
  {
    -((-x).Floor)
  }

  lemma MulLess(m: real, a: real, b: real)
    requires m > 0.0 && a < b
    ensures m * a < m * b
    ensures a * m < b * m
  {
    MulPos(m, b - a);
    assert m * (b - a) == m * b - m * a;
    assert (b - a) * m == b * m - a * m;
  }

  lemma MulLessEq(m: real, a: real, b: real)
    requires m >= 0.0 && a <= b
    ensures m * a <= m * b
    ensures a * m <= b * m
  {
    assert m * (b - a) >= 0.0;
    assert m * (b - a) == m * b - m * a;
    assert (b - a) * m == b * m - a * m;
  }

  /** Division by a positive number preserves order. */
  lemma DivMono(a: real, b: real, h: real)
    requires h > 0.0 && a <= b
    ensures a / h <= b / h
  {
    var p := a / h;
    var q := b / h;
    assert h * p == a;
    assert h * q == b;
    if q < p {
      MulLess(h, q, p);
      assert false;
    }
  }

  /** JavaScript's `n % m` for a positive modulus: the remainder of the
      quotient rounded toward zero, so it carries the sign of `n`. */
  function JsRem(n: real, m: real): (r: real)
    requires m > 0.0
    ensures 0.0 <= n ==> 0.0 <= r < m
    ensures n <= 0.0 ==> -m < r <= 0.0
    ensures n - r == (Trunc(n / m) as real) * m
  {
    RemBounds(n, m);
    n - m * (Trunc(n / m) as real)
  }

  lemma RemBounds(n: real, m: real)
    requires m > 0.0
    ensures var r := n - m * (Trunc(n / m) as real);
      && (0.0 <= n ==> 0.0 <= r < m)
      && (n <= 0.0 ==> -m < r <= 0.0)
  {
    var t := Trunc(n / m) as real;
    if n / m >= 0.0 {
      RemBelow(n, m, t);
    } else {
      RemAbove(n, m, t);
    }
  }

  /** With t <= n/m < t + 1, the remainder n - m*t lies in [0, m). */
  lemma RemBelow(n: real, m: real, t: real)
    requires m > 0.0
    requires t <= n / m < t + 1.0
    ensures 0.0 <= n - m * t < m
  {
    RemAtLeast(n, m, t);
    RemBelowM(n, m, t);
  }

  /** With n/m <= t < n/m + 1, the remainder n - m*t lies in (-m, 0]. */
  lemma RemAbove(n: real, m: real, t: real)
    requires m > 0.0
    requires n / m <= t < n / m + 1.0
    ensures -m < n - m * t <= 0.0
  {
    RemAtMost(n, m, t);
    RemAboveM(n, m, t);
  }

  lemma RemAtLeast(n: real, m: real, t: real)
    requires m > 0.0 && t <= n / m
    ensures 0.0 <= n - m * t
  {
    var q := n / m;
    assert m * q == n;
    MulLessEq(m, t, q);
    assert m * t <= n;
  }

  lemma RemAtMost(n: real, m: real, t: real)
    requires m > 0.0 && n / m <= t
    ensures n - m * t <= 0.0
  {
    var q := n / m;
    assert m * q == n;
    MulLessEq(m, q, t);
    assert n <= m * t;
  }

  lemma RemBelowM(n: real, m: real, t: real)
    requires m > 0.0 && n / m < t + 1.0
    ensures n - m * t < m
  {
    var q := n / m;
    var u := t + 1.0;
    assert m * q == n;
    MulLess(m, q, u);
    assert n < m * u;
    assert m * u == m * t + m;
  }

  lemma RemAboveM(n: real, m: real, t: real)
    requires m > 0.0 && t < n / m + 1.0
    ensures -m < n - m * t
  {
    var q := n / m;
    var u := q + 1.0;
    assert m * q == n;
    MulLess(m, t, u);
    assert m * t < m * u;
    assert m * u == n + m;
  }

  /** The helper `mod(n, m) = ((n % m) + m) % m` (Particle.tsx line 48). */
  function JsMod(n: real, m: real): (r: real)
    requires m > 0.0
    ensures 0.0 <= r < m
  {
    JsRem(JsRem(n, m) + m, m)
  }

  /** Floored modulo, the reference definition `mod` is meant to compute. */
  function FloorMod(n: real, m: real): (r: real)
    requires m > 0.0
    ensures 0.0 <= r < m
  {
    FloorModBounds(n, m);
    n - m * ((n / m).Floor as real)
  }

  lemma FloorModBounds(n: real, m: real)
    requires m > 0.0
    ensures 0.0 <= n - m * ((n / m).Floor as real) < m
  {
    RemBelow(n, m, (n / m).Floor as real);
  }

  /** Two values in [0, m) whose difference is an integer multiple of m are equal. */
  lemma SameResidue(a: real, b: real, k: int, m: real)
    requires m > 0.0
    requires 0.0 <= a < m && 0.0 <= b < m
    requires a - b == (k as real) * m
    ensures a == b
  {
    if k >= 1 {
      MulLessEq(m, 1.0, k as real);
      assert false;
    } else if k <= -1 {
      MulLessEq(m, k as real, -1.0);
      assert false;
    }
  }

  /** `mod(n, m)` lies in [0, m) and differs from n by an integer multiple of m:
      it agrees with floored modulo everywhere. */
  lemma {:induction false} JsModIsFloorMod(n: real, m: real)
    requires m > 0.0
    ensures JsMod(n, m) == FloorMod(n, m)
    ensures n - JsMod(n, m) == ((n / m).Floor as real) * m
  {
    var k := JsModOffset(n, m);
    FloorModOffset(n, m);
    ResidueFromOffsets(n, JsMod(n, m), FloorMod(n, m), k, (n / m).Floor, m);
  }

  /** Two residues in [0, m) of the same n are equal. */
  lemma ResidueFromOffsets(n: real, r: real, f: real, k: int, fl: int, m: real)
    requires m > 0.0
    requires 0.0 <= r < m && 0.0 <= f < m
    requires n - r == (k as real) * m
    requires n - f == (fl as real) * m
    ensures r == f
  {
    MulDiff(fl, k, m);
    SameResidue(r, f, fl - k, m);
  }

  /** `mod(n, m)` differs from n by an integer multiple of m. */
  lemma JsModOffset(n: real, m: real) returns (k: int)
    requires m > 0.0
    ensures n - JsMod(n, m) == (k as real) * m
  {
    var r1 := JsRem(n, m);
    var r := JsRem(r1 + m, m);
    var a := Trunc(n / m);
    var b := Trunc((r1 + m) / m);
    assert r == JsMod(n, m);
    TwoMultiples(n, r1, r, a as real, b as real, m);
    k := a + b - 1;
    assert k as real == a as real + b as real - 1.0;
  }

  /** Two remainder steps compose: the total offset is a sum of multiples. */
  lemma TwoMultiples(n: real, r1: real, r: real, a: real, b: real, m: real)
    requires n - r1 == a * m
    requires (r1 + m) - r == b * m
    ensures n - r == (a + b - 1.0) * m
  {
    assert (a + b - 1.0) * m == a * m + b * m - m;
  }

  lemma FloorModOffset(n: real, m: real)
    requires m > 0.0
    ensures n - FloorMod(n, m) == ((n / m).Floor as real) * m
  {
  }

  lemma MulDiff(a: int, b: int, m: real)
    ensures ((a - b) as real) * m == (a as real) * m - (b as real) * m
  {
  }

  lemma DivShift(n: real, m: real)
    requires m > 0.0
    ensures (n + m) / m == n / m + 1.0
  {
    var a := (n + m) / m;
    var b := n / m + 1.0;
    assert m * a == n + m;
    assert m * (n / m) == n;
    assert m * b == n + m;
    if a < b {
      MulLess(m, a, b);
    } else if b < a {
      MulLess(m, b, a);
    }
  }

  /** Floored modulo is periodic with period m. */
  lemma FloorModPeriodic(n: real, m: real)
    requires m > 0.0
    ensures FloorMod(n + m, m) == FloorMod(n, m)
  {
    var f := (n / m).Floor;
    DivShift(n, m);
    assert ((n + m) / m).Floor == f + 1;
    var g := f as real;
    assert m * (g + 1.0) == m * g + m;
  }

  /** `mod(·, m)` is periodic with period m. */
  lemma {:induction false} JsModPeriodic(n: real, m: real)
    requires m > 0.0
    ensures JsMod(n + m, m) == JsMod(n, m)
  {
    JsModIsFloorMod(n, m);
    JsModIsFloorMod(n + m, m);
    FloorModPeriodic(n, m);
  }
}

=== FILE: navbar.dfy ===
/** The site navigation bar (frontend/components/Navbar.tsx): which link is
    highlighted for the current path, when the bar switches to its scrolled
    style, and the open/closed state of the mobile drawer. The pathname and
    the scroll offset come from the host. */
module Navbar {

  datatype NavLink = NavLink(name: string, path: string)

  /** The `navLinks` table, in display order. */
  const NavLinks: seq<NavLink> := [
    NavLink("Home", "/"),
    NavLink("Services", "/services"),
    NavLink("Blog", "/blog")
  ]

  /** Offset below which the bar keeps its transparent style. */
  const ScrollThreshold: real := 20.0

  /** `isActive(path)`: the root link only on the root itself, every other
      link on every pathname that starts with its path. */
  function IsActive(pathname: string, path: string): (b: bool)
    ensures path == "/" ==> (b <==> pathname == "/")
    ensures path != "/" ==> (b <==> |path| <= |pathname| && pathname[..|path|] == path)
  {
    if path == "/" then pathname == "/" else path <= pathname
  }

  /** Every link is active on its own path. */
  lemma ActiveOnOwnPath(path: string)
    ensures IsActive(path, path)
  {
  }

  /** The prefix rule is purely textual: a link stays active below its path
      and also on a longer sibling such as `/blogroll`. */
  lemma ActiveOnExtensions(path: string, rest: string)
    requires path != "/"
    ensures IsActive(path + rest, path)
  {
    assert (path + rest)[..|path|] == path;
  }

  lemma BlogActiveOnBlogroll()
    ensures IsActive("/blog/42", "/blog")
    ensures IsActive("/blogroll", "/blog")
    ensures !IsActive("/blog", "/")
  {
    ActiveOnExtensions("/blog", "/42");
    ActiveOnExtensions("/blog", "roll");
  }

  /** The number of configured links active on `pathname`. */
  function ActiveCount(pathname: string, links: seq<NavLink>): (n: nat)
    ensures n <= |links|
    ensures n == 0 <==> forall k :: 0 <= k < |links| ==> !IsActive(pathname, links[k].path)
  {
    if |links| == 0 then 0
    else (if IsActive(pathname, links[0].path) then 1 else 0) + ActiveCount(pathname, links[1..])
  }

  /** `/services` and `/blog` differ at their second character, so no pathname
      starts with both, and neither is a prefix of `/`. */
  lemma {:induction false} AtMostOneActive(pathname: string)
    ensures ActiveCount(pathname, NavLinks) <= 1
  {
    var services := NavLinks[1].path;
    var blog := NavLinks[2].path;
    assert NavLinks[1..][1..][1..] == [];
    if IsActive(pathname, services) {
      assert pathname[1] == 's';
      assert !IsActive(pathname, blog);
      assert pathname != "/";
    }
    if IsActive(pathname, blog) {
      assert pathname[1] == 'b';
      assert pathname != "/";
    }
  }

  /** `window.scrollY > 20` */
  function Scrolled(scrollY: real): (b: bool)
    ensures b ==> scrollY > ScrollThreshold
    ensures scrollY > ScrollThreshold ==> b
  {
    scrollY > ScrollThreshold
  }

  /** Scrolling further down never drops the scrolled style, and returning
      to an offset of 20 or less always drops it. */
  lemma ScrolledMonotone(y1: real, y2: real)
    ensures y1 <= y2 && Scrolled(y1) ==> Scrolled(y2)
    ensures y2 <= ScrollThreshold ==> !Scrolled(y2)
  {
  }

  datatype NavState = NavState(isOpen: bool, scrolled: bool)

  datatype NavEvent =
    | MenuButton            // the hamburger / close button
    | Logo                  // the logo link
    | Overlay               // the dimmed backdrop behind the drawer
    | DrawerLink(path: string)
    | DrawerContact
    | Scroll(scrollY: real)

  /** The state after one event handler runs. */
  function Step(s: NavState, e: NavEvent): (r: NavState)
    ensures e.MenuButton? ==> r.isOpen == !s.isOpen
    ensures (e.Logo? || e.Overlay? || e.DrawerLink? || e.DrawerContact?) ==> !r.isOpen
    ensures e.Scroll? ==> r.isOpen == s.isOpen && (r.scrolled <==> e.scrollY > ScrollThreshold)
    ensures !e.Scroll? ==> r.scrolled == s.scrolled
  {
    match e
    case MenuButton => s.(isOpen := !s.isOpen)
    case Logo => s.(isOpen := false)
    case Overlay => s.(isOpen := false)
    case DrawerLink(_) => s.(isOpen := false)
    case DrawerContact => s.(isOpen := false)
    case Scroll(y) => s.(scrolled := Scrolled(y))
  }

  /** Pressing the menu button twice restores the drawer. */
  lemma ToggleTwice(s: NavState)
    ensures Step(Step(s, MenuButton), MenuButton) == s
  {
  }

  /** The state after a sequence of events. */
  function Run(s: NavState, es: seq<NavEvent>): (r: NavState)
    decreases |es|
  {
    if |es| == 0 then s else Run(Step(s, es[0]), es[1..])
  }

  /** Counts menu-button presses in a sequence of events. */
  function Presses(es: seq<NavEvent>): (n: nat)
    ensures n <= |es|
  {
    if |es| == 0 then 0 else (if es[0].MenuButton? then 1 else 0) + Presses(es[1..])
  }

  /** Only the button opens the drawer: over a run of button presses and
      scrolls, the drawer ends up flipped iff the button was pressed an odd
      number of times. */
  lemma {:induction false} OpenIffOddPresses(s: NavState, es: seq<NavEvent>)
    requires forall k :: 0 <= k < |es| ==> es[k].MenuButton? || es[k].Scroll?
    ensures Run(s, es).isOpen <==> (s.isOpen != (Presses(es) % 2 == 1))
    decreases |es|
  {
    if |es| > 0 {
      OpenIffOddPresses(Step(s, es[0]), es[1..]);
    }
  }

  /** The last closing event wins: after a logo, overlay or drawer click
      followed only by scrolling, the drawer is closed. */
  lemma {:induction false} ClosedAfterClosingEvent(s: NavState, e: NavEvent, es: seq<NavEvent>)
    requires e.Logo? || e.Overlay? || e.DrawerLink? || e.DrawerContact?
    requires forall k :: 0 <= k < |es| ==> es[k].Scroll?
    ensures !Run(s, [e] + es).isOpen
  {
    assert ([e] + es)[1..] == es;
    ScrollKeepsDrawer(Step(s, e), es);
  }

  lemma {:induction false} ScrollKeepsDrawer(s: NavState, es: seq<NavEvent>)
    requires forall k :: 0 <= k < |es| ==> es[k].Scroll?
    ensures Run(s, es).isOpen == s.isOpen
    decreases |es|
  {
    if |es| > 0 {
      ScrollKeepsDrawer(Step(s, es[0]), es[1..]);
    }
  }
}

=== FILE: particle.dfy ===
/** One cube of the animated background (class `Particle` in
    frontend/components/Particle.tsx): its state record, the per-frame
    `update`, the perspective projection, and the intensity arithmetic of
    `draw`. The pointer distance (a square root), the wave axis (cosine and
    sine of the wave angle) and the random draws are inputs. */
module Particle {
  import opened Config
  import opened JsMath

  datatype Vec3 = Vec3(x: real, y: real, z: real)

  /** Screen position and depth scale of a projected point. */
  datatype Projected = Projected(x: real, y: real, scale: real)

  /** Per-particle state. `base*` fields are fixed at construction. */
  datatype Particle = Particle(
    basePos: Vec3,
    currentPos: Vec3,
    baseSize: real,
    currentSize: real,
    targetSize: real,
    baseHue: real,
    colorTimer: real,
    waveIntensity: real,
    mouseIntensity: real,
    stamina: real,
    cubeRotation: Vec3,
    baseRotationSpeed: Vec3,
    currentRotationSpeed: Vec3)

  /** What one animation frame feeds to `update`: the Euclidean distance from
      the particle's projected position to the pointer, the two switches that
      turn interaction off, and the global wave phase. */
  datatype Frame = Frame(pointerDist: real, isMobile: bool, disableInteraction: bool, wavePhase: real)

  /** Unit direction of the wave's travel axis: (cos, sin) of the wave angle. */
  datatype WaveAxis = WaveAxis(dirX: real, dirY: real)

  /** A distance is never negative. */
  predicate ValidFrame(f: Frame) {
    f.pointerDist >= 0.0
  }

  /** The pointer branch of `update` runs. */
  predicate Interacting(f: Frame) {
    !f.isMobile && !f.disableInteraction && f.pointerDist < MouseInteractionRadius
  }

  /** The invariant every particle keeps between frames. */
  predicate Valid(p: Particle) {
    && 0.0 <= p.stamina <= 1.0
    && 0.0 <= p.mouseIntensity <= 1.0
    && 0.0 <= p.waveIntensity <= 1.0
    // the cube only ever moves along z, toward the viewer, at most 200 units
    && p.basePos.z == 0.0
    && p.currentPos.x == p.basePos.x
    && p.currentPos.y == p.basePos.y
    && 0.0 <= p.currentPos.z <= MaxPull
    // sizes stay between the base size and its full interaction boost
    && 0.0 <= p.baseSize
    && p.baseSize <= p.targetSize <= p.baseSize * InteractionStrength
    && p.baseSize <= p.currentSize <= p.baseSize * InteractionStrength
    // x/y spin is at most boosted by the full pointer boost; z spin is never boosted
    && p.baseRotationSpeed.x <= p.currentRotationSpeed.x <= p.baseRotationSpeed.x + SpinBoost
    && p.baseRotationSpeed.y <= p.currentRotationSpeed.y <= p.baseRotationSpeed.y + SpinBoost
    && p.currentRotationSpeed.z == p.baseRotationSpeed.z
  }

  // ---------------------------------------------------------------------
  // Projection

  /** Perspective projection `project` with focal length 2000 around the
      canvas centre. Only points in front of the camera plane are modelled. */
  function Project(p: Vec3, centerX: real, centerY: real): (r: Projected)
    requires p.z > -Fov
    ensures r.scale > 0.0
    ensures p.z >= 0.0 ==> r.scale <= 1.0
    ensures p.z <= MaxPull ==> Fov / (Fov + MaxPull) <= r.scale
  {
    var scale := Fov / (Fov + p.z);
    ScaleBounds(p.z);
    Projected(centerX + p.x * scale, centerY + p.y * scale, scale)
  }

  lemma ScaleBounds(z: real)
    requires z > -Fov
    ensures Fov / (Fov + z) > 0.0
    ensures z >= 0.0 ==> Fov / (Fov + z) <= 1.0
    ensures z <= MaxPull ==> Fov / (Fov + MaxPull) <= Fov / (Fov + z)
  {
    var d := Fov + z;
    var s := Fov / d;
    assert d * s == Fov;
    if s <= 0.0 {
      MulLessEq(d, s, 0.0);
      assert false;
    }
    if z <= MaxPull {
      var t := Fov / (Fov + MaxPull);
      assert (Fov + MaxPull) * t == Fov;
      if s < t {
        MulLess(d, s, t);
        MulLessEq(t, d, Fov + MaxPull);
        assert false;
      }
    }
    if z >= 0.0 && s > 1.0 {
      MulLess(d, 1.0, s);
      assert false;
    }
  }

  /** Inverse of `Project` for a known depth. */
  function Unproject(s: Projected, z: real, centerX: real, centerY: real): Vec3
    requires s.scale != 0.0
  {
    Vec3((s.x - centerX) / s.scale, (s.y - centerY) / s.scale, z)
  }

  /** Projection loses nothing but the depth: unprojecting at the same depth
      gives back the point. */
  lemma ProjectRoundTrip(p: Vec3, centerX: real, centerY: real)
    requires p.z > -Fov
    ensures Unproject(Project(p, centerX, centerY), p.z, centerX, centerY) == p
  {
    var s := Project(p, centerX, centerY);
    assert (p.x * s.scale) / s.scale == p.x;
    assert (p.y * s.scale) / s.scale == p.y;
  }

  /** Every valid particle projects with a depth scale in [2000/2200, 1]. */
  lemma ValidProjectionScale(p: Particle, centerX: real, centerY: real)
    requires Valid(p)
    ensures Fov / (Fov + MaxPull) <= Project(p.currentPos, centerX, centerY).scale <= 1.0
  {
  }

  // ---------------------------------------------------------------------
  // Pointer falloff and the wave band

  /** Cubic falloff `(1 - dist/radius)^3`: 1 on the pointer, decreasing to 0
      at the interaction radius. */
  function Falloff(dist: real): (r: real)
    requires 0.0 <= dist <= MouseInteractionRadius
    ensures 0.0 <= r <= 1.0
    ensures dist == 0.0 ==> r == 1.0
    ensures dist == MouseInteractionRadius ==> r == 0.0
  {
    var u := 1.0 - dist / MouseInteractionRadius;
    CubeUnit(u);
    Cube(u)
  }

  /** The falloff strictly decreases with distance across the whole
      interaction radius. */
  lemma FalloffDecreasing(d1: real, d2: real)
    requires 0.0 <= d1 < d2 <= MouseInteractionRadius
    ensures Falloff(d2) < Falloff(d1)
  {
    var u1 := 1.0 - d1 / MouseInteractionRadius;
    var u2 := 1.0 - d2 / MouseInteractionRadius;
    assert d1 / MouseInteractionRadius < d2 / MouseInteractionRadius;
    assert 0.0 <= u2 < u1;
    CubeIncreasing(u2, u1);
  }

  /** Position of a point along the wave's travel axis. */
  function AxisPos(pos: Vec3, axis: WaveAxis): real {
    pos.x * axis.dirX + pos.y * axis.dirY
  }

  /** `distFromWave`: the offset from the wave phase, taken modulo the wave
      interval and folded so that it measures the distance to the nearest
      band centre. */
  function DistFromWave(axisPos: real, phase: real): (r: real)
    ensures 0.0 <= r <= WaveInterval / 2.0
    ensures r == Min(FloorMod(axisPos - phase, WaveInterval), WaveInterval - FloorMod(axisPos - phase, WaveInterval))
  {
    var rel := JsMod(axisPos - phase, WaveInterval);
    JsModIsFloorMod(axisPos - phase, WaveInterval);
    if rel > WaveInterval / 2.0 then WaveInterval - rel else rel
  }

  /** Squared linear falloff inside half the wave width, 0 outside. */
  function BandIntensity(d: real): (r: real)
    requires d >= 0.0
    ensures 0.0 <= r <= 1.0
    ensures d >= WaveWidth / 2.0 ==> r == 0.0
    ensures d == 0.0 ==> r == 1.0
  {
    if d < WaveWidth / 2.0 then
      var u := 1.0 - d / (WaveWidth / 2.0);
      SquareUnit(u);
      Square(u)
    else
      0.0
  }

  /** The wave intensity a particle at `pos` gets at wave phase `phase`. */
  function WaveIntensity(pos: Vec3, phase: real, axis: WaveAxis): (r: real)
    ensures 0.0 <= r <= 1.0
  {
    BandIntensity(DistFromWave(AxisPos(pos, axis), phase))
  }

  /** The band repeats every wave interval, both along the axis and in phase. */
  lemma {:induction false} WaveBandPeriodic(axisPos: real, phase: real)
    ensures DistFromWave(axisPos + WaveInterval, phase) == DistFromWave(axisPos, phase)
    ensures DistFromWave(axisPos, phase + WaveInterval) == DistFromWave(axisPos, phase)
  {
    DistFromWaveShift(axisPos, phase, axisPos + WaveInterval, phase);
    DistFromWaveShift(axisPos, phase + WaveInterval, axisPos, phase);
  }

  /** The animation loop advances the phase by 4 per frame, so every
      particle sees the same band again after 625 frames. */
  lemma WaveReturns(axisPos: real, phase: real)
    ensures DistFromWave(axisPos, phase + 625.0 * WaveSpeed) == DistFromWave(axisPos, phase)
  {
    WaveBandPeriodic(axisPos, phase);
  }

  /** Offsets that differ by one wave interval are equally far from a band. */
  lemma DistFromWaveShift(x: real, phase: real, y: real, phase2: real)
    requires y - phase2 == (x - phase) + WaveInterval
    ensures DistFromWave(y, phase2) == DistFromWave(x, phase)
  {
    FloorModPeriodic(x - phase, WaveInterval);
  }

  // ---------------------------------------------------------------------
  // Construction

  /** The random draws a particle makes when it is built: four `Math.random()`
      values in [0,1), one for the hue offset and one for each of the three base spin speeds, and
      the initial colour phase and cube angles (random multiples of pi), kept
      as given because only the drawing trigonometry reads them. */
  datatype Seeds = Seeds(hue: real, colorPhase: real, rotation: Vec3, spinX: real, spinY: real, spinZ: real)

  predicate ValidSeeds(s: Seeds) {
    && 0.0 <= s.hue < 1.0
    && 0.0 <= s.spinX < 1.0 && 0.0 <= s.spinY < 1.0 && 0.0 <= s.spinZ < 1.0
  }

  /** The two heights the constructor can read: the canvas's (0 before the
      canvas is sized) and the window's. */
  datatype Viewport = Viewport(canvasHeight: nat, innerHeight: real)

  /** At least one of the two heights is usable. */
  predicate HasHeight(v: Viewport) {
    v.canvasHeight > 0 || v.innerHeight > 0.0
  }

  /** `canvas.height || window.innerHeight`: a zero canvas height falls back
      to the window height, so the gradient never divides by zero as long as
      one of the two is positive. */
  function FrameHeight(v: Viewport): (h: real)
    ensures HasHeight(v) ==> h > 0.0
  {
    if v.canvasHeight != 0 then v.canvasHeight as real else v.innerHeight
  }

  /** The vertical hue gradient: purple (260) above the frame, orange (40)
      below it, linear in between. */
  function GradientHue(y: real, h: real): (r: real)
    requires h > 0.0
    ensures HueBottom <= r <= HueTop
    ensures y <= -h / 2.0 ==> r == HueTop
    ensures y >= h / 2.0 ==> r == HueBottom
  {
    var normalizedY := Min(1.0, Max(0.0, (y + h / 2.0) / h));
    NormalizedEnds(y, h);
    HueTop + (HueBottom - HueTop) * normalizedY
  }

  lemma NormalizedEnds(y: real, h: real)
    requires h > 0.0
    ensures y <= -h / 2.0 ==> (y + h / 2.0) / h <= 0.0
    ensures y >= h / 2.0 ==> (y + h / 2.0) / h >= 1.0
  {
    if y <= -h / 2.0 {
      DivMono(y + h / 2.0, 0.0, h);
    }
    if y >= h / 2.0 {
      DivMono(h, y + h / 2.0, h);
      assert h / h == 1.0;
    }
  }

  /** Lower particles never get a higher gradient hue. */
  lemma GradientDescends(y1: real, y2: real, h: real)
    requires h > 0.0 && y1 <= y2
    ensures GradientHue(y2, h) <= GradientHue(y1, h)
  {
    DivMono(y1 + h / 2.0, y2 + h / 2.0, h);
  }

  /** The multiplier `sizePattern[patternIndex % 3]`; the index is always in
      range because pattern indices are never negative. */
  function SizeMultiplier(patternIndex: nat): (r: real)
    ensures r in SizePattern
  {
    SizePattern[patternIndex % |SizePattern|]
  }

  /** The `Particle` constructor at (x, y) with the given pattern index. */
  function NewParticle(x: real, y: real, patternIndex: nat, v: Viewport, s: Seeds): (r: Particle)
    requires HasHeight(v)
    ensures Valid(r)
    ensures r.basePos == Vec3(x, y, 0.0) && r.currentPos == r.basePos
    ensures r.baseSize == BaseCubeSize * SizeMultiplier(patternIndex)
    ensures r.currentSize == r.baseSize && r.targetSize == r.baseSize
    ensures r.stamina == 1.0 && r.mouseIntensity == 0.0 && r.waveIntensity == 0.0
    ensures r.currentRotationSpeed == r.baseRotationSpeed
    ensures ValidSeeds(s) ==>
      GradientHue(y, FrameHeight(v)) - HueRandomness <= r.baseHue < GradientHue(y, FrameHeight(v)) + HueRandomness
    ensures ValidSeeds(s) ==>
      && -0.01 <= r.baseRotationSpeed.x < 0.01
      && -0.01 <= r.baseRotationSpeed.y < 0.01
      && -0.01 <= r.baseRotationSpeed.z < 0.01
  {
    var baseSize := BaseCubeSize * SizeMultiplier(patternIndex);
    var randomOffset := (s.hue - 0.5) * HueRandomness * 2.0;
    var spin := Vec3((s.spinX - 0.5) * 0.02, (s.spinY - 0.5) * 0.02, (s.spinZ - 0.5) * 0.02);
    Particle(
      basePos := Vec3(x, y, 0.0),
      currentPos := Vec3(x, y, 0.0),
      baseSize := baseSize,
      currentSize := baseSize,
      targetSize := baseSize,
      baseHue := GradientHue(y, FrameHeight(v)) + randomOffset,
      colorTimer := s.colorPhase,
      waveIntensity := 0.0,
      mouseIntensity := 0.0,
      stamina := 1.0,
      cubeRotation := s.rotation,
      baseRotationSpeed := spin,
      currentRotationSpeed := spin)
  }

  // ---------------------------------------------------------------------
  // The per-frame update

  /** The pointer branch of `update`: cubic falloff scaled by stamina,
      stamina drained, size target boosted, cube pulled toward the viewer,
      x/y spin boosted. */
  function PointerPhase(p: Particle, dist: real): Particle {
    var force := Cube(1.0 - dist / MouseInteractionRadius) * p.stamina;
    var boost := SpinBoost * force;
    p.(mouseIntensity := force,
       stamina := Max(0.0, p.stamina - InteractionDecay),
       targetSize := p.baseSize * (1.0 + force * (InteractionStrength - 1.0)),
       currentPos := p.currentPos.(z := Ease(p.currentPos.z, MaxPull * force, ZPull)),
       currentRotationSpeed := p.currentRotationSpeed.(
         x := p.baseRotationSpeed.x + boost,
         y := p.baseRotationSpeed.y + boost))
  }

  /** The other branch: no pointer effect, stamina recovers, position and
      x/y spin ease back to their base values. */
  function RelaxPhase(p: Particle): Particle {
    p.(mouseIntensity := 0.0,
       stamina := Min(1.0, p.stamina + InteractionRecovery),
       targetSize := p.baseSize,
       currentPos := Vec3(
         Ease(p.currentPos.x, p.basePos.x, EaseFactor),
         Ease(p.currentPos.y, p.basePos.y, EaseFactor),
         Ease(p.currentPos.z, p.basePos.z, EaseFactor)),
       currentRotationSpeed := p.currentRotationSpeed.(
         x := Ease(p.currentRotationSpeed.x, p.baseRotationSpeed.x, SpinEase),
         y := Ease(p.currentRotationSpeed.y, p.baseRotationSpeed.y, SpinEase)))
  }

  /** The unconditional tail of `update`: colour timer, size easing, spin,
      and the wave intensity at the new position. */
  function Advance(q: Particle, phase: real, axis: WaveAxis): Particle {
    q.(colorTimer := q.colorTimer + ColorAnimationSpeed,
       currentSize := Ease(q.currentSize, q.targetSize, EaseFactor),
       cubeRotation := Vec3(
         q.cubeRotation.x + q.currentRotationSpeed.x,
         q.cubeRotation.y + q.currentRotationSpeed.y,
         q.cubeRotation.z + q.baseRotationSpeed.z),
       waveIntensity := WaveIntensity(q.currentPos, phase, axis))
  }

  /** `update(mouse, currentWavePhase)`. */
  function Update(p: Particle, f: Frame, axis: WaveAxis): (r: Particle)
    ensures r.basePos == p.basePos && r.baseSize == p.baseSize && r.baseHue == p.baseHue
    ensures r.baseRotationSpeed == p.baseRotationSpeed
    ensures Valid(p) && ValidFrame(f) ==> Valid(r)
  {
    var q := if Interacting(f) then PointerPhase(p, f.pointerDist) else RelaxPhase(p);
    if Valid(p) && ValidFrame(f) then
      PhaseValid(p, f);
      AdvanceValid(q, f.wavePhase, axis);
      Advance(q, f.wavePhase, axis)
    else
      Advance(q, f.wavePhase, axis)
  }

  lemma PhaseValid(p: Particle, f: Frame)
    requires Valid(p) && ValidFrame(f)
    ensures Valid(if Interacting(f) then PointerPhase(p, f.pointerDist) else RelaxPhase(p))
  {
    if Interacting(f) {
      PointerPhaseValid(p, f.pointerDist);
    }
  }

  lemma PointerPhaseValid(p: Particle, dist: real)
    requires Valid(p) && 0.0 <= dist < MouseInteractionRadius
    ensures Valid(PointerPhase(p, dist))
  {
    ForceUnit(dist, p.stamina);
    PointerSize(p, dist);
    PointerDepth(p, dist);
    PointerSpin(p, dist);
  }

  /** The pointer branch keeps the size target in [base, 3 * base]. */
  lemma PointerSize(p: Particle, dist: real)
    requires Valid(p) && 0.0 <= dist < MouseInteractionRadius
    ensures var q := PointerPhase(p, dist);
      q.baseSize <= q.targetSize <= q.baseSize * InteractionStrength
  {
    var m := Cube(1.0 - dist / MouseInteractionRadius) * p.stamina;
    var q := PointerPhase(p, dist);
    ForceUnit(dist, p.stamina);
    BoostedTarget(p.baseSize, m, q.targetSize);
  }

  /** The pointer branch keeps the depth in [0, 200]. */
  lemma PointerDepth(p: Particle, dist: real)
    requires Valid(p) && 0.0 <= dist < MouseInteractionRadius
    ensures 0.0 <= PointerPhase(p, dist).currentPos.z <= MaxPull
  {
    ForceUnit(dist, p.stamina);
    PulledDepth(p.currentPos.z, Cube(1.0 - dist / MouseInteractionRadius) * p.stamina);
  }

  /** The pointer branch boosts the x/y spin by at most 0.25. */
  lemma PointerSpin(p: Particle, dist: real)
    requires Valid(p) && 0.0 <= dist < MouseInteractionRadius
    ensures var q := PointerPhase(p, dist);
      && q.baseRotationSpeed.x <= q.currentRotationSpeed.x <= q.baseRotationSpeed.x + SpinBoost
      && q.baseRotationSpeed.y <= q.currentRotationSpeed.y <= q.baseRotationSpeed.y + SpinBoost
  {
    ForceUnit(dist, p.stamina);
    ScaleUnit(SpinBoost, Cube(1.0 - dist / MouseInteractionRadius) * p.stamina);
  }

  /** The pointer force, falloff times stamina, lies in [0,1]. */
  lemma ForceUnit(dist: real, stamina: real)
    requires 0.0 <= dist < MouseInteractionRadius && 0.0 <= stamina <= 1.0
    ensures 0.0 <= Cube(1.0 - dist / MouseInteractionRadius) * stamina <= 1.0
  {
    var u := 1.0 - dist / MouseInteractionRadius;
    CubeUnit(u);
    MulUnit(Cube(u), stamina);
  }

  /** A boost in [0,1] keeps the size target between base and its threefold. */
  lemma BoostedTarget(base: real, m: real, target: real)
    requires base >= 0.0 && 0.0 <= m <= 1.0
    requires target == base * (1.0 + m * (InteractionStrength - 1.0))
    ensures base <= target <= base * InteractionStrength
  {
    ScaleUnit(base, m);
    assert target == base + 2.0 * (base * m);
  }

  /** Easing toward a pull target in [0, 200] stays in [0, 200]. */
  lemma PulledDepth(z: real, m: real)
    requires 0.0 <= z <= MaxPull && 0.0 <= m <= 1.0
    ensures 0.0 <= Ease(z, MaxPull * m, ZPull) <= MaxPull
  {
    ScaleUnit(MaxPull, m);
  }

  lemma RelaxPhaseValid(p: Particle)
    requires Valid(p)
    ensures Valid(RelaxPhase(p))
  {
  }

  lemma AdvanceValid(q: Particle, phase: real, axis: WaveAxis)
    requires Valid(q)
    ensures Valid(Advance(q, phase, axis))
  {
  }

  /** The pointer branch: cubic falloff scaled by stamina, stamina drained by
      the decay rate and floored at 0, size target boosted at most threefold. */
  lemma {:induction false} InteractionStep(p: Particle, f: Frame, axis: WaveAxis)
    requires Valid(p) && ValidFrame(f) && Interacting(f)
    ensures Update(p, f, axis).mouseIntensity == Falloff(f.pointerDist) * p.stamina
    ensures Update(p, f, axis).stamina == Max(0.0, p.stamina - InteractionDecay)
    ensures Update(p, f, axis).stamina <= p.stamina
    ensures p.baseSize <= Update(p, f, axis).targetSize <= p.baseSize * InteractionStrength
  {
  }

  /** Outside the radius, or with interaction switched off, there is no
      pointer effect at all and stamina recovers, capped at 1. */
  lemma {:induction false} NoInteractionStep(p: Particle, f: Frame, axis: WaveAxis)
    requires f.isMobile || f.disableInteraction || f.pointerDist >= MouseInteractionRadius
    ensures Update(p, f, axis).mouseIntensity == 0.0
    ensures Update(p, f, axis).targetSize == p.baseSize
    ensures Update(p, f, axis).stamina == Min(1.0, p.stamina + InteractionRecovery)
    ensures p.stamina <= 1.0 ==> p.stamina <= Update(p, f, axis).stamina
  {
  }

  /** Easing never overshoots: the size gap to the target shrinks by the
      factor 0.9 and keeps its sign. */
  lemma SizeEasesTowardTarget(p: Particle, f: Frame, axis: WaveAxis)
    ensures var r := Update(p, f, axis);
      && r.targetSize - r.currentSize == (1.0 - EaseFactor) * (r.targetSize - p.currentSize)
      && (p.currentSize <= r.targetSize ==> p.currentSize <= r.currentSize <= r.targetSize)
      && (r.targetSize <= p.currentSize ==> r.targetSize <= r.currentSize <= p.currentSize)
  {
  }

  /** The wave intensity after an update depends only on the particle's
      home position, the phase and the wave axis, never on the pointer. */
  lemma {:induction false} WaveIgnoresPointer(p: Particle, f: Frame, axis: WaveAxis)
    requires Valid(p)
    ensures Update(p, f, axis).waveIntensity == WaveIntensity(p.basePos, f.wavePhase, axis)
  {
    var r := Update(p, f, axis);
    assert r.currentPos.x == p.basePos.x && r.currentPos.y == p.basePos.y;
    assert AxisPos(r.currentPos, axis) == AxisPos(p.basePos, axis);
  }

  /** The z-axis spin is never affected by the pointer. */
  lemma SpinZIgnoresPointer(p: Particle, f: Frame, g: Frame, axis: WaveAxis)
    ensures Update(p, f, axis).cubeRotation.z == Update(p, g, axis).cubeRotation.z
  {
  }

  // ---------------------------------------------------------------------
  // Many frames

  /** Apply `update` for every frame in order. */
  function Run(p: Particle, fs: seq<Frame>, axis: WaveAxis): Particle
    decreases |fs|
  {
    if |fs| == 0 then p else Run(Update(p, fs[0], axis), fs[1..], axis)
  }

  predicate AllInteracting(fs: seq<Frame>) {
    forall i :: 0 <= i < |fs| ==> Interacting(fs[i])
  }

  predicate NoneInteracting(fs: seq<Frame>) {
    forall i :: 0 <= i < |fs| ==> !Interacting(fs[i])
  }

  /** Under continuous hover the stamina drops by exactly the decay rate per
      frame until it hits 0. */
  lemma {:induction false} StaminaDrains(p: Particle, fs: seq<Frame>, axis: WaveAxis)
    requires 0.0 <= p.stamina
    requires AllInteracting(fs)
    ensures Run(p, fs, axis).stamina == Max(0.0, p.stamina - (|fs| as real) * InteractionDecay)
    decreases |fs|
  {
    if |fs| > 0 {
      var q := Update(p, fs[0], axis);
      assert AllInteracting(fs[1..]) by {
        forall i | 0 <= i < |fs[1..]| ensures Interacting(fs[1..][i]) {
          assert fs[1..][i] == fs[i + 1];
        }
      }
      StaminaDrains(q, fs[1..], axis);
    }
  }

  /** A full stamina is spent after ceil(1 / 0.015) = 67 frames of hover. */
  lemma StaminaExhausted(p: Particle, fs: seq<Frame>, axis: WaveAxis)
    requires 0.0 <= p.stamina <= 1.0
    requires AllInteracting(fs) && |fs| >= 67
    ensures Run(p, fs, axis).stamina == 0.0
  {
    StaminaDrains(p, fs, axis);
  }

  /** Without the pointer the stamina rises by the recovery rate per frame,
      capped at 1. */
  lemma {:induction false} StaminaRecovers(p: Particle, fs: seq<Frame>, axis: WaveAxis)
    requires p.stamina <= 1.0
    requires NoneInteracting(fs)
    ensures Run(p, fs, axis).stamina == Min(1.0, p.stamina + (|fs| as real) * InteractionRecovery)
    decreases |fs|
  {
    if |fs| > 0 {
      var q := Update(p, fs[0], axis);
      assert NoneInteracting(fs[1..]) by {
        forall i | 0 <= i < |fs[1..]| ensures !Interacting(fs[1..][i]) {
          assert fs[1..][i] == fs[i + 1];
        }
      }
      StaminaRecovers(q, fs[1..], axis);
    }
  }

  /** Any stamina in [0,1] is fully restored after ceil(1 / 0.03) = 34 frames
      away from the pointer, and the pointer intensity is then 0. */
  lemma StaminaRestored(p: Particle, fs: seq<Frame>, axis: WaveAxis)
    requires 0.0 <= p.stamina <= 1.0
    requires NoneInteracting(fs) && |fs| >= 34
    ensures Run(p, fs, axis).stamina == 1.0
    ensures Run(p, fs, axis).mouseIntensity == 0.0
  {
    StaminaRecovers(p, fs, axis);
    NoPointerEffect(p, fs, axis);
  }

  lemma {:induction false} NoPointerEffect(p: Particle, fs: seq<Frame>, axis: WaveAxis)
    requires NoneInteracting(fs) && |fs| > 0
    ensures Run(p, fs, axis).mouseIntensity == 0.0
    ensures Run(p, fs, axis).targetSize == p.baseSize
    decreases |fs|
  {
    var q := Update(p, fs[0], axis);
    if |fs| > 1 {
      assert NoneInteracting(fs[1..]) by {
        forall i | 0 <= i < |fs[1..]| ensures !Interacting(fs[1..][i]) {
          assert fs[1..][i] == fs[i + 1];
        }
      }
      NoPointerEffect(q, fs[1..], axis);
    }
  }

  /** Distance of the depth from its rest value. */
  function DepthGap(p: Particle): real {
    p.currentPos.z - p.basePos.z
  }

  /** Distance of the size from the base size. */
  function SizeGap(p: Particle): real {
    p.currentSize - p.baseSize
  }

  /** Distance of the x spin from its base drift. */
  function SpinGap(p: Particle): real {
    p.currentRotationSpeed.x - p.baseRotationSpeed.x
  }

  /** Distance of the y spin from its base drift. */
  function SpinGapY(p: Particle): real {
    p.currentRotationSpeed.y - p.baseRotationSpeed.y
  }

  /** One frame away from the pointer shrinks each gap to its base value by
      the easing factor. */
  lemma RelaxStep(p: Particle, f: Frame, axis: WaveAxis)
    requires !Interacting(f)
    ensures DepthGap(Update(p, f, axis)) == (1.0 - EaseFactor) * DepthGap(p)
    ensures SizeGap(Update(p, f, axis)) == (1.0 - EaseFactor) * SizeGap(p)
    ensures SpinGap(Update(p, f, axis)) == (1.0 - SpinEase) * SpinGap(p)
    ensures SpinGapY(Update(p, f, axis)) == (1.0 - SpinEase) * SpinGapY(p)
  {
  }

  /** `b` to the power `n`. */
  function Pow(b: real, n: nat): real {
    if n == 0 then 1.0 else b * Pow(b, n - 1)
  }

  /** `x` multiplied by `b`, `n` times over. */
  function Decay(b: real, n: nat, x: real): real {
    if n == 0 then x else b * Decay(b, n - 1, x)
  }

  /** The closed form: `Decay(b, n, x) == b^n * x`. */
  lemma {:induction false} DecayIsPow(b: real, n: nat, x: real)
    ensures Decay(b, n, x) == Pow(b, n) * x
  {
    if n > 0 {
      DecayIsPow(b, n - 1, x);
      Assoc(Pow(b, n - 1), b, x);
    }
  }

  lemma Assoc(a: real, b: real, x: real)
    ensures b * (a * x) == (b * a) * x
  {
  }

  /** Scaling the start value by `b` is one more step of decay. */
  lemma {:induction false} DecayStep(b: real, n: nat, x: real)
    ensures Decay(b, n, b * x) == Decay(b, n + 1, x)
  {
    if n > 0 {
      DecayStep(b, n - 1, x);
    }
  }

  lemma NoneInteractingTail(fs: seq<Frame>)
    requires NoneInteracting(fs) && |fs| > 0
    ensures NoneInteracting(fs[1..])
  {
    forall i | 0 <= i < |fs[1..]| ensures !Interacting(fs[1..][i]) {
      assert fs[1..][i] == fs[i + 1];
    }
  }

  /** Once the pointer is gone the depth relaxes geometrically to rest:
      after n frames its gap is the starting gap times 0.9^n. */
  lemma {:induction false} DepthSettles(p: Particle, fs: seq<Frame>, axis: WaveAxis)
    requires NoneInteracting(fs)
    ensures DepthGap(Run(p, fs, axis)) == Decay(1.0 - EaseFactor, |fs|, DepthGap(p))
    decreases |fs|
  {
    if |fs| > 0 {
      var q := Update(p, fs[0], axis);
      var rest := fs[1..];
      assert Run(p, fs, axis) == Run(q, rest, axis);
      NoneInteractingTail(fs);
      RelaxStep(p, fs[0], axis);
      DepthSettles(q, rest, axis);
      DecayStep(1.0 - EaseFactor, |rest|, DepthGap(p));
    }
  }

  /** Likewise the size relaxes to the base size by the factor 0.9 per frame. */
  lemma {:induction false} SizeSettles(p: Particle, fs: seq<Frame>, axis: WaveAxis)
    requires NoneInteracting(fs)
    ensures SizeGap(Run(p, fs, axis)) == Decay(1.0 - EaseFactor, |fs|, SizeGap(p))
    decreases |fs|
  {
    if |fs| > 0 {
      var q := Update(p, fs[0], axis);
      var rest := fs[1..];
      assert Run(p, fs, axis) == Run(q, rest, axis);
      NoneInteractingTail(fs);
      RelaxStep(p, fs[0], axis);
      SizeSettles(q, rest, axis);
      DecayStep(1.0 - EaseFactor, |rest|, SizeGap(p));
    }
  }

  /** And the x spin relaxes to its base drift by the factor 0.95 per frame. */
  lemma {:induction false} SpinSettles(p: Particle, fs: seq<Frame>, axis: WaveAxis)
    requires NoneInteracting(fs)
    ensures SpinGap(Run(p, fs, axis)) == Decay(1.0 - SpinEase, |fs|, SpinGap(p))
    decreases |fs|
  {
    if |fs| > 0 {
      var q := Update(p, fs[0], axis);
      var rest := fs[1..];
      assert Run(p, fs, axis) == Run(q, rest, axis);
      NoneInteractingTail(fs);
      RelaxStep(p, fs[0], axis);
      SpinSettles(q, rest, axis);
      DecayStep(1.0 - SpinEase, |rest|, SpinGap(p));
    }
  }

  /** The y spin obeys the same law. */
  lemma {:induction false} SpinYSettles(p: Particle, fs: seq<Frame>, axis: WaveAxis)
    requires NoneInteracting(fs)
    ensures SpinGapY(Run(p, fs, axis)) == Decay(1.0 - SpinEase, |fs|, SpinGapY(p))
    decreases |fs|
  {
    if |fs| > 0 {
      var q := Update(p, fs[0], axis);
      var rest := fs[1..];
      assert Run(p, fs, axis) == Run(q, rest, axis);
      NoneInteractingTail(fs);
      RelaxStep(p, fs[0], axis);
      SpinYSettles(q, rest, axis);
      DecayStep(1.0 - SpinEase, |rest|, SpinGapY(p));
    }
  }

  /** The invariant holds after any number of frames. */
  lemma {:induction false} RunKeepsValid(p: Particle, fs: seq<Frame>, axis: WaveAxis)
    requires Valid(p)
    requires forall i :: 0 <= i < |fs| ==> ValidFrame(fs[i])
    ensures Valid(Run(p, fs, axis))
    decreases |fs|
  {
    if |fs| > 0 {
      assert forall i :: 0 <= i < |fs[1..]| ==> ValidFrame(fs[1..][i]) by {
        forall i | 0 <= i < |fs[1..]| ensures ValidFrame(fs[1..][i]) {
          assert fs[1..][i] == fs[i + 1];
        }
      }
      RunKeepsValid(Update(p, fs[0], axis), fs[1..], axis);
    }
  }

  // ---------------------------------------------------------------------
  // Intensity arithmetic of `draw`

  /** `finalIntensity`: the stronger of the two effects. */
  function FinalIntensity(p: Particle): (r: real)
    requires Valid(p)
    ensures 0.0 <= r <= 1.0
    ensures r >= p.waveIntensity && r >= p.mouseIntensity
    ensures r == p.waveIntensity || r == p.mouseIntensity
  {
    Max(p.waveIntensity, p.mouseIntensity)
  }

  /** `fillOpacity`: faces are filled only in the top 70% of the intensity
      range, at most with opacity 0.42. */
  function FillOpacity(fi: real): (r: real)
    requires 0.0 <= fi <= 1.0
    ensures 0.0 <= r <= (1.0 - FillThreshold) * FillGain
    ensures r > 0.0 <==> fi > FillThreshold
  {
    if fi > FillThreshold then (fi - FillThreshold) * FillGain else 0.0
  }

  /** Stroke parameters derived from the final intensity. */
  datatype Stroke = Stroke(saturation: real, lightness: real, lineWidth: real, alpha: real)

  function StrokeFor(fi: real): (r: Stroke)
    requires 0.0 <= fi <= 1.0
    ensures 0.0 <= r.saturation <= BaseSaturation
    ensures BaseLightness <= r.lightness <= SparkleLightness
    ensures WireframeWidth <= r.lineWidth <= 3.0 * WireframeWidth
    ensures fi == 0.0 ==> r == Stroke(BaseSaturation, BaseLightness, WireframeWidth, BaseAlpha)
    ensures fi == 1.0 ==> r == Stroke(0.0, SparkleLightness, 3.0 * WireframeWidth, 1.0)
  {
    if fi > 0.0 then
      Stroke(BaseSaturation * (1.0 - fi),
             BaseLightness + (SparkleLightness - BaseLightness) * fi,
             WireframeWidth + (WireframeWidth * 2.0) * fi,
             1.0)
    else
      Stroke(BaseSaturation, BaseLightness, WireframeWidth, BaseAlpha)
  }

  /** Glow radius: off at low intensity, at most the configured strength. */
  function ShadowBlur(fi: real, depth: real): (r: real)
    requires 0.0 <= fi <= 1.0 && 0.0 < depth <= 1.0
    ensures 0.0 <= r <= ShadowBlurStrength
    ensures r > 0.0 <==> fi > GlowThreshold
  {
    if fi > GlowThreshold then
      MulUnit(fi, depth);
      ShadowBlurStrength * fi * depth
    else 0.0
  }
}
